=== FILE: README.md ===
# Sakha flashcards: a Dafny model of the review scheduler

The browser extension keeps a store of flashcards, each filed under its
`front` word, with a back text, `daysLeft` (days until the card is due) and
`counter` (consecutive successful reviews). The flashcard page offers two
kinds of review session:
- **smart**: only due cards, most overdue first;
- **random**: every card, shuffled.

In a session:
- "know" pushes a card's next review `F(counter + 1) - 1` days out, where `F`
  is the Fibonacci sequence;
- "don't know" first reveals the answer. A second press re-queues a copy of
  the card a few places later and cuts its counter back.

The card list page searches, pages through, deletes and imports cards. The
daily ageing, "skip a day" and the counter resets move cards towards being
due. The dictionary popup has a small keyboard helper: a backslash typed after
certain Russian letters or digits turns the previous character into a Sakha
letter.

This project models that logic in Dafny as pure functions over immutable
data:
- a `Card` record;
- the store as a `map` from front to card;
- the session as a record of queue, position, answer flag and mode.

Every random draw, the number of elapsed days and every store snapshot is an
explicit parameter. A draw is constrained to the values `Math.random()` can
produce.

| file | module | what |
|---|---|---|
| `wrappers.dfy` | `Wrappers` | `Option`, used for JavaScript `undefined` |
| `sequences.dfy` | `Sequences` | filter, insert/remove at a position, `splice` start clamping |
| `cards.dfy` | `Cards` | the card record and the store |
| `spacing.dfy` | `Spacing` | `fibonacciByIndex` and the review interval |
| `shuffle.dfy` | `Shuffle` | `shuffleArray` (Fisher–Yates) with explicit draws |
| `ordering.dfy` | `Ordering` | the stable ascending sort by `daysLeft` |
| `queuebuilder.dfy` | `QueueBuilder` | the session queue of `loadFlashcards` |
| `review.dfy` | `Review` | the know / don't-know / mode buttons and the card display |
| `ageing.dfy` | `Ageing` | daily ageing, skip a day, counter resets |
| `textcase.dfy` | `TextCase` | `toLowerCase` / `toUpperCase` on the letters involved |
| `cardlist.dfy` | `CardList` | search, pagination, delete, import merge |
| `transliteration.dfy` | `Transliteration` | the backslash handler and `applyCase` of the popup |

## Model

| member | source | states |
|---|---|---|
| Spacing.FibonacciByIndex | flashcards.js:65-79 | The loop returns the n-th Fibonacci number (F(0)=0, F(1)=1) for every n >= 0, and its initial `b`, 1, for negative n. |
| Spacing.FibLoopComputesFib | flashcards.js:69-78 | Loop invariant: on entering iteration i the pair (a, b) is (F(i-2), F(i-1)), so the loop exits with b = F(n). |
| Spacing.Interval | flashcards.js:552 | The interval for counter c is F(c+1) - 1. It is non-negative for every counter c >= 0, and 0 for a counter below -1. |
| Spacing.IntervalValues | flashcards.js:552 | The intervals for counters 0..7 are 0, 0, 1, 2, 4, 7, 12, 20 days. |
| Spacing.FirstIntervals | flashcards.js:596 | The intervals for the counters a "don't know" leaves (0, 1, 3) are 0, 0, 2 days. |
| Spacing.FibMonotone | flashcards.js:65-79 | The Fibonacci numbers never decrease. |
| Spacing.IntervalMonotone | flashcards.js:552 | More successful reviews never shorten the interval. |
| Spacing.IntervalRecurrence | flashcards.js:552 | From counter 1 on, I(c+1) = I(c) + I(c-1) + 1, so the interval grows strictly. |
| Sequences.Filter | flashcards.js:432 | `Array.filter` keeps exactly the elements satisfying the predicate and adds no new ones or extra copies. |
| Sequences.FilterAppend | flashcards.js:432 | Filtering distributes over concatenation. |
| Sequences.InsertAt | flashcards.js:614 | `splice(p, 0, x)`: x lands at p, the elements before p stay and those after shift by one, and the multiset gains exactly x. |
| Sequences.InsertThenRemove | flashcards.js:614 | Removing the element just inserted gives back the original array. |
| Sequences.SpliceStart | flashcards.js:614 | `splice` clamps its start: it is kept when inside the array, becomes the length when past the end, and counts from the end when negative, down to 0 when it reaches before the start. |
| Sequences.PrefixSubMultiset | flashcards.js:449 | `slice(0, count)` never contains an element more often than the array. |
| Shuffle.Swap | flashcards.js:419 | The destructuring swap exchanges positions i and j and touches nothing else, so the multiset is unchanged. |
| Shuffle.ShuffleFrom | flashcards.js:417-421 | Every remaining iteration of the loop preserves length and multiset and leaves the positions already fixed unchanged. |
| Shuffle.ShuffleArray | flashcards.js:416-422 | `shuffleArray` returns a permutation of its input for every sequence of draws with 0 <= j <= i. |
| Shuffle.ShuffleLastPick | flashcards.js:417-421 | The first draw alone decides which element ends up last. |
| Shuffle.ShuffleFromFixedDraws | flashcards.js:417-421 | If every draw is j = i, every swap is trivial and the array comes back unchanged. |
| Ordering.WithDays | flashcards.js:439 | The group of cards with a given `daysLeft` holds exactly those cards. |
| Ordering.WithDaysAppend | flashcards.js:439 | Taking a group distributes over concatenation. |
| Ordering.InsertByDays | flashcards.js:439 | Insertion adds exactly one card. |
| Ordering.InsertSorted | flashcards.js:439 | Inserting into a sorted sequence keeps it sorted. |
| Ordering.ConsSorted | flashcards.js:439 | A card no later than every card of a sorted sequence can be put in front of it. |
| Ordering.SortByDays | flashcards.js:439 | The smart-mode sort is a permutation of its input, in ascending `daysLeft`. |
| Ordering.InsertStable | flashcards.js:439 | Insertion places the new card before the equal-key cards already present. |
| Ordering.SortStable | flashcards.js:439 | The sort is stable: the cards of each `daysLeft` value keep their input order. |
| Ordering.HeadOfGroup | flashcards.js:439 | The first card of a sequence heads its own key group. |
| Ordering.SameGroupsSameHead | flashcards.js:439 | Two sorted sequences with equal key groups start with the same card. |
| Ordering.SameGroupsTail | flashcards.js:439 | Dropping a common first card keeps the key groups equal. |
| Ordering.SortedSameGroupsEqual | flashcards.js:439 | Two sorted sequences with the same key groups are equal. |
| Ordering.StableSortUnique | flashcards.js:439 | Any sorted, stable rearrangement equals the model's sort, so the engine's stable `Array.sort` gives the same queue. |
| QueueBuilder.Eligible | flashcards.js:432 | Exactly the cards with a non-empty front are kept. |
| QueueBuilder.Pool | flashcards.js:432-436 | The pool is the cards with a front, and in smart mode only the due ones (`daysLeft <= 0`). |
| QueueBuilder.Staged | flashcards.js:434-443 | After the mode step the pool is permuted: sorted in smart mode, shuffled otherwise. |
| QueueBuilder.LimitApplies | flashcards.js:448 | The count limit applies exactly when the parsed count is a number with `0 < count < n`. |
| QueueBuilder.PrefixBeforeSuffix | flashcards.js:448-451 | In a sorted queue, every card before the cut sorts no later than every card after it. |
| QueueBuilder.LoadQueue | flashcards.js:424-465 | Every queued card comes from the snapshot and has a front, and in smart mode is due. Without a limit, the queue is a permutation of the pool; in smart mode it is exactly the stable sort `Ordering.SortByDays` of the pool. With `0 < count < n`, it holds exactly `count` cards, a permutation of the first `count` after the mode step; in smart mode these are the most overdue. |
| QueueBuilder.QueueDrawnFromPool | flashcards.js:446-452 | With or without the limit, the queue is a sub-multiset of the pool. |
| Review.Promote | flashcards.js:546-552 | "Know" in smart mode: the counter becomes `(counter or 0) + 1` and `daysLeft` the interval of the new counter. Front and back are unchanged. |
| Review.Demote | flashcards.js:594-597 | "Don't know" in smart mode: the counter decays and `daysLeft` becomes the interval of the decayed counter. Front and back are unchanged. |
| Review.DecayCounterShape | flashcards.js:594-595 | The decay maps 0 to 0, 1..3 to 1, and 4 and above to 3. It never raises a non-negative counter and is monotone on non-negative counters. |
| Review.DecayCounter | flashcards.js:594-595 | The decayed counter is 0, 1 or 3. It is 0 exactly for counter 0, and 3 exactly for a missing counter or one above 3. |
| Review.DemotedSoon | flashcards.js:594-597 | After a smart-mode "don't know" the card is due within 0 to 2 days. |
| Review.MissingCounterAsymmetry | flashcards.js:546-552 | Summary of `PromoteMissing` and `DemoteMissing`: a card without a counter gets counter 1 from "know" but counter 3 (two days) from "don't know", since `undefined <= 3` is false. |
| Review.PromoteMissing | flashcards.js:548-552 | "Know" on a card without a counter gives counter 1 and 0 days left. |
| Review.DemoteMissing | flashcards.js:594-596 | "Don't know" on a card without a counter gives counter 3 and 2 days left. |
| Review.WriteBack | flashcards.js:541-555 | The card under the front is replaced by its update if it is stored. A missing card leaves the store as it was. |
| Review.Know | flashcards.js:534-569 | Past the end of the queue nothing changes. Otherwise the index advances by one, the answer is hidden and the queue is kept. In smart mode the stored card is promoted; in any other mode the store is untouched. |
| Review.InsertOffset | flashcards.js:606-614 | `remaining.splice(2 + f, 0, card)` puts the copy at offset exactly 2 + f in a tail of length >= 2, where f is the draw `Math.floor(Math.random() * (length - 1))`. With a shorter tail it goes at the end. |
| Review.InsertOffsetIsSpliceStart | flashcards.js:608-614 | For every draw f the source can make, the offset equals the start `splice` really uses for `2 + f`, With two or more cards left the start `2 + f` is already in range. With fewer, `splice` clamps it to the end of the tail, which is what `InsertOffset` returns. |
| Review.CopyPosition | flashcards.js:603-619 | The copy never lands on the next card while one is left. While two are left it lands at `index + 3 + f` for the draw f, at least two cards after the next one, and at the end otherwise. |
| Review.Requeue | flashcards.js:602-619 | The queue grows by one. It keeps every card through the current one and has a copy of the current card at the chosen place. Removing that copy gives back the old queue, so the old order is preserved. |
| Review.RequeueCurrent | flashcards.js:602-619 | The new queue keeps the prefix through the current card, and shows the next card next while one is left. The copy sits at `CopyPosition` and no card is lost. |
| Review.RequeueAt | flashcards.js:602-619 | Re-queueing at a position p after the current card grows the queue by one with the copy at p. Removing it gives back the queue. The prefix, the next card and the multiset are as in `RequeueCurrent`. |
| Review.DontKnow | flashcards.js:571-627 | Past the end of the queue nothing changes. The first press only reveals the answer. The second press commits. Apart from the smart-mode commit the store is not written. |
| Review.CommitDontKnow | flashcards.js:587-626 | The commit grows the queue by one with the copy at `CopyPosition`, advances the index and hides the answer. It demotes the stored card in smart mode and writes nothing otherwise. |
| Review.SelectMode | flashcards.js:664-681 | A mode button sets the mode, rebuilds the queue from the `getAll()` snapshot of the store, restarts at index 0 with the answer hidden, and does not write the store. Every queued card is the card stored under its front. Without a limit, every stored card with a front (and due, in smart mode) is queued. |
| Review.QueueFromStore | flashcards.js:424-465 | A queue built from a snapshot of the store holds only stored cards, and without a limit every stored card the mode admits. |
| Review.ReturnToModeChoice | flashcards.js:520-530 | "To flashcards" clears the mode and hides the answer. The rebuilt queue draws only on cards with a front, each of them the card stored under its front, and the store is unchanged. |
| Review.TransitionsPreserveInvariants | flashcards.js:534-627 | Summary of `KnowKeepsInvariants` and `DontKnowKeepsInvariants`: both buttons keep the index within the queue and every card filed under its own front. "Know" uses up one card; "don't know" leaves the number of cards left unchanged. |
| Review.KnowKeepsInvariants | flashcards.js:534-569 | "Know" keeps the index within the queue and every card under its own front, and uses up one card. |
| Review.DontKnowKeepsInvariants | flashcards.js:571-627 | "Don't know" keeps the index within the queue and every card under its own front, and leaves the number of cards to go unchanged. |
| Review.DemoteKeepsKeys | flashcards.js:590-597 | Demoting the card found under a front keeps every card under its own front. |
| Review.Show | flashcards.js:467-506 | The card area is blank before a mode is chosen. It shows "no cards" for an empty queue and "finished" once the queue is used up. Otherwise it shows the front, plus the back once revealed, with progress "index + 1 / length". |
| Review.FinishedIsFinal | flashcards.js:534-574 | Once the review is finished, both buttons leave session, store and display unchanged. |
| Review.SmartModeExamples | flashcards.js:546-597 | "Know" on counter 2 gives counter 3 and 2 days. "Don't know" on counter 5 gives counter 3 and 2 days, and on counter 0 it gives 0 and 0 days. |
| Review.RandomModeKnowExample | flashcards.js:534-569 | In random mode "know" advances and writes nothing. |
| Ageing.AgeCard | flashcards.js:344-350 | A numeric `daysLeft` goes down by the days elapsed. It is clamped at 0 only for a card whose counter is 0, and a missing value is left alone. |
| Ageing.AgeStore | flashcards.js:343-351 | The daily update ages every stored card and keeps the keys. |
| Ageing.AgeCardComposes | flashcards.js:344-350 | Ageing by a days and then b days is ageing by a + b days. |
| Ageing.AgeStoreComposes | flashcards.js:343-351 | The same holds for the whole store, so updates may be batched. |
| Ageing.SkipDayCard | flashcards.js:698-703 | "Skip a day" maps d >= 0 to max(0, d - 1). It leaves negative and missing values alone. |
| Ageing.SkipDayStore | flashcards.js:697-704 | "Skip a day" applies to every stored card and keeps the keys. |
| Ageing.SkipDaysCountsDown | flashcards.js:698-703 | n skips bring a non-negative `daysLeft` d to max(0, d - n). |
| Ageing.SkipDayVersusAgeing | flashcards.js:344-350 | A skip equals one day of ageing above 0. Unlike ageing, it never goes below 0 or touches negative values. |
| Ageing.ResetCounters | flashcards.js:386-387 | A reset card has counter 0 and 0 days left, so it is due. |
| Ageing.ResetCard | flashcards.js:373-390 | The per-card reset resets the stored card under the front. An empty front or a missing card changes nothing, and other cards are untouched. |
| Ageing.ResetAll | flashcards.js:727-731 | The global reset resets every stored card and keeps the keys. |
| Ageing.ResetCardsStayDue | flashcards.js:344-350 | After a global reset every card has 0 days left and is due, and stays due under ageing and skipping. |
| TextCase.Lower | popup.js:249-256 | `toLowerCase` maps capital letters to small letters and leaves every other character alone. |
| TextCase.Upper | popup.js:260-264 | `toUpperCase` maps small letters to capital letters and leaves every other character alone. |
| TextCase.CaseRoundTrip | popup.js:249-266 | Lower and upper case are mutually inverse on letters, and each is idempotent. |
| TextCase.LowerString | flashcards.js:105-108 | `toLowerCase` on a string works character by character. |
| TextCase.UpperString | popup.js:140 | `toUpperCase` on a string works character by character. |
| TextCase.UpperStringFixpoint | popup.js:140 | A string equals its upper case exactly when it has no small letter. |
| TextCase.LowerStringIdempotent | flashcards.js:105-108 | Lower-casing twice is lower-casing once. |
| TextCase.UpperStringIdempotent | popup.js:140-141 | Upper-casing twice is upper-casing once. |
| CardList.Includes | flashcards.js:107 | `s.includes(p)` holds exactly when p occurs in s at some position. |
| CardList.SearchCards | flashcards.js:104-109 | An empty search lists every card. Otherwise it lists exactly the cards whose lower-cased front contains the lower-cased search, with no extra copies. |
| CardList.SearchIgnoresCase | flashcards.js:104-109 | The search ignores letter case in both the search text and the front. |
| CardList.TotalPages | flashcards.js:125 | `ceil(n / 10)`: the fewest pages of 10 that hold n cards. |
| CardList.ClampPage | flashcards.js:126-128 | The page is clamped into [1, totalPages], and to 1 when there is no page. A valid page is kept, a page past the end becomes the last page, and a page below 1 becomes 1. |
| CardList.PageSlice | flashcards.js:130-132 | The slice holds at most 10 cards, contiguous from `start`, and is shorter only at the end of the list. |
| CardList.LoadCards | flashcards.js:84-132 | An empty store shows no cards, one page. Otherwise the page count covers the listed cards and the current page is a real page: the one asked for when valid, the last page when it is past the end, page 1 when it is below 1. The page shows the listed cards from `(page - 1) * 10` on: ten of them, or all the remaining ones when fewer than ten are left. |
| CardList.PagesCoverList | flashcards.js:125-132 | Card j of the list is entry j % 10 of page j / 10 + 1, and that page exists. |
| CardList.PageFromInput | flashcards.js:174-179 | Non-numbers and numbers below 1 ask for page 1, or for page 0 when there is no page. Numbers past the end ask for the last page. |
| CardList.PreviousPage | flashcards.js:167-169 | "Previous" asks for page - 1 exactly when the current page is past 1. |
| CardList.NextPage | flashcards.js:170-173 | "Next" asks for page + 1 exactly when a later page exists. |
| CardList.PageNavigationStaysInRange | flashcards.js:167-179 | Whatever the buttons and the page input ask for, `loadCards` shows a real page, and a step moves exactly one page. |
| CardList.DeleteCard | flashcards.js:184-207 | Deleting by front removes that card and no other. |
| CardList.TrimStart | flashcards.js:280-285 | Leading spaces are removed up to the first non-space. |
| CardList.TrimEnd | flashcards.js:280-285 | Trailing spaces are removed back to the last non-space. |
| CardList.Trim | flashcards.js:283-284 | `trim` returns the contiguous slice of the text between leading and trailing spaces, which neither starts nor ends with a space. |
| CardList.ToCard | flashcards.js:283-289 | An imported card is filed under its trimmed front with its trimmed back. A given `daysLeft` or `counter` is kept, and a missing one becomes 0. |
| CardList.NewKeys | flashcards.js:279-281 | The fronts the loop puts are never among those stored before the import. |
| CardList.NoRepeatsCons | flashcards.js:279-294 | A list has no repeats exactly when its head is not in its tail and the tail has none. |
| CardList.DisjointStep | flashcards.js:279-294 | How "none of these fronts is put yet" changes with one more entry or one more put. |
| CardList.ImportLoop | flashcards.js:279-294 | A completed loop keeps every card put before it, and adds only fronts that were not stored before the import. |
| CardList.ImportLoopSucceeds | flashcards.js:279-294 | The loop completes exactly when no front repeats among the new entries or the cards already put. Otherwise a put fails the unique index and aborts. |
| CardList.ImportLoopKeys | flashcards.js:279-294 | A completed loop has put exactly the new fronts and left earlier puts alone. |
| CardList.ImportLoopCards | flashcards.js:283-289 | On completion each new entry is stored as its trimmed record. |
| CardList.ImportedCards | flashcards.js:279-294 | A completed import adds one card per new front, filed under that front, and none of them was stored before. |
| CardList.NewKeyOrigin | flashcards.js:279-281 | Every new front comes from an entry of the file. |
| CardList.ImportCards | flashcards.js:248-305 | Stored cards are never changed. A repeated new front rolls back the whole import. Otherwise exactly the new entries are added, each as its trimmed record, and every card stays filed under its own front. |
| Transliteration.TableShape | popup.js:235-246 | The table keys are small Russian letters or digits, and every value is a small Sakha letter. |
| Transliteration.SakhaCase | popup.js:258-266 | A small Sakha letter has a Sakha capital that lower-cases back to it. |
| Transliteration.Replacement | popup.js:256-266 | The replacement lower-cases to the table entry. A digit gives a capital exactly when Caps Lock is on; a letter gives a capital exactly when it is one itself. |
| Transliteration.BeforeInput | popup.js:227-274 | Only a backslash typed into INPUT or TEXTAREA is handled. With no replaceable character before the caret it is swallowed. Otherwise that one character is replaced, the text keeps its length, the caret stays and no backslash is added. |
| Transliteration.NoDoubleReplacement | popup.js:248-252 | A second backslash right after a replacement is swallowed, so nothing is transliterated twice. |
| Transliteration.SakhaNotInTable | popup.js:235-250 | No Sakha letter, in either case, is a key of the table. |
| Transliteration.BeforeInputExamples | popup.js:227-274 | "н\" gives "ҥ" and "Н\" gives "Ҥ". "5\" gives "ҕ", or "Ҕ" with Caps Lock. "д\" and a caret at 0 swallow the backslash. Other elements and other data pass through. |
| Transliteration.ApplyCase | popup.js:139-143 | `dst` is upper-cased exactly when `src` has no small letter, and is returned unchanged otherwise. |
| Transliteration.ApplyCaseIdempotent | popup.js:139-143 | Applying the case of src twice is applying it once, and an all-capital src yields no small letter. |

## Left out

- IndexedDB: opening the database, transactions, callbacks and promises. The store is a `map` keyed by front. The asynchronous writes of one click are applied at once, and clicks are processed one at a time. A write racing a later click is not modelled.
- DOM rendering: table rows, button labels, progress text and display styles. `Review.Show` states only which card area is shown.
- The card-list sort options (`currentSort`, flashcards.js:111-121). They sort by an `id` field or by `localeCompare`. The model keeps the default "added" order, which is the snapshot order.
- The search text is trimmed when Enter is pressed (flashcards.js:629-634). `CardList.SearchCards` takes the search text after that trim.
- Date arithmetic and `localStorage` in `updateDaysLeftIfNeeded`. The number of days elapsed is an input of `Ageing.AgeStore`.
- `Math.random()`. Each draw is a parameter restricted to the values `Math.floor(Math.random() * m)` can take. Uniformity is not modelled.
- `null` field values. A missing field is `undefined` (`None`). The differences `null` would make (`null <= 0` is true) are not modelled.
- Export, clipboard, clearing the whole store, JSON parsing and the file-type check of the import. The import starts from the parsed array. An entry whose front or back is not a string is not modelled.
- Imported `daysLeft` and `counter` values that are not integers (`2.5`, `"3"`, `null`) are not modelled: `CardList.ImportEntry` holds an optional integer, and such a value would be stored as given and then compared and added with JavaScript's loose rules.
- Negative counters: an imported file can carry a negative `counter`, which `CardList.ToCard` keeps. The interval and decay properties are stated for counters >= 0; for a negative counter the model computes what the source does (`Spacing.Interval(-1)` is -1) but promises nothing further.
- `parseInt`. The page input and the count field are an `Option<int>`, with `None` for NaN.
- The dictionary lookup of the popup (network fetch and HTML scraping) and background.js.
- The `keydown` listener that records Caps Lock (popup.js:223-225). Its last value is an input of `Transliteration.BeforeInput`.
- Text positions count Unicode scalar values, not UTF-16 code units. A surrogate pair before the caret is not modelled.
- TextCase.Lower, TextCase.Upper: covers ASCII letters, the Cyrillic block U+0400–U+045F and the five Sakha letters, not full Unicode case mapping. Other characters are their own case.
- CardList.TrimStart, CardList.TrimEnd: only ASCII and Latin-1 spaces and the byte-order mark are treated as whitespace, not every Unicode space that `trim` removes.
- CardList.LoadCards: the page input is a number. The rows skipped at render time for an empty front (flashcards.js:136) still count in the page slice here, as they do in the source.
- Spacing.FibonacciByIndex: JavaScript numbers are doubles. The model uses unbounded integers, which agree with the source up to 2^53, that is up to counter 77.
- Review.ReturnToModeChoice: states that the rebuilt queue draws from the eligible cards. The full contract of the rebuilt queue is that of `QueueBuilder.LoadQueue` with no mode.

=== FILE: ageing.dfy ===
/** Store-wide scheduling maintenance of flashcards.js: the daily ageing of
    `daysLeft` (`updateDaysLeftIfNeeded`), the "skip a day" button, and the
    counter resets of one card and of all cards. The number of days since the
    last update is an input; the date arithmetic and `localStorage` that
    produce it are not modelled. */
module Ageing {
  import opened Wrappers
  import opened Cards

  /** One card after `diffDays` days have passed: a numeric `daysLeft` goes
      down by `diffDays`, and is clamped at 0 only for a card whose counter
      is 0 (flashcards.js:345-347). */
  function AgeCard(c: Card, diffDays: int): (r: Card)
    ensures r.front == c.front && r.back == c.back && r.counter == c.counter
    ensures c.daysLeft.None? ==> r == c
    ensures c.daysLeft.Some? && c.counter != Some(0) ==>
              r.daysLeft == Some(c.daysLeft.value - diffDays)
    ensures c.daysLeft.Some? && c.counter == Some(0) ==>
              r.daysLeft.Some? && r.daysLeft.value >= 0
              && (c.daysLeft.value - diffDays >= 0 ==> r.daysLeft.value == c.daysLeft.value - diffDays)
              && (c.daysLeft.value - diffDays < 0 ==> r.daysLeft.value == 0)
  {
    match c.daysLeft
    case None => c
    case Some(d) =>
      var d' := d - diffDays;
      c.(daysLeft := Some(if c.counter == Some(0) && d' < 0 then 0 else d'))
  }

  /** The daily update over the whole store (flashcards.js:344-350). */
  function AgeStore(store: Store, diffDays: int): (r: Store)
    ensures r.Keys == store.Keys
    ensures forall k :: k in store ==> r[k] == AgeCard(store[k], diffDays)
    ensures WellKeyed(store) ==> WellKeyed(r)
  {
    map k | k in store :: AgeCard(store[k], diffDays)
  }

  /** Two updates of `a` and then `b` days equal one update of `a + b` days,
      as long as time does not run backwards. */
  lemma AgeCardComposes(c: Card, a: int, b: int)
    requires a >= 0 && b >= 0
    ensures AgeCard(AgeCard(c, a), b) == AgeCard(c, a + b)
  {
  }

  lemma AgeStoreComposes(store: Store, a: int, b: int)
    requires a >= 0 && b >= 0
    ensures AgeStore(AgeStore(store, a), b) == AgeStore(store, a + b)
  {
    forall k | k in store
      ensures AgeStore(AgeStore(store, a), b)[k] == AgeStore(store, a + b)[k]
    {
      AgeCardComposes(store[k], a, b);
    }
  }

  /** The "skip a day" button on one card (flashcards.js:699-701): a
      non-negative `daysLeft` goes down by one day but not below 0; negative
      and missing values are left alone. */
  function SkipDayCard(c: Card): (r: Card)
    ensures r.front == c.front && r.back == c.back && r.counter == c.counter
    ensures !(c.daysLeft.Some? && c.daysLeft.value >= 0) ==> r == c
    ensures c.daysLeft.Some? && c.daysLeft.value >= 1 ==> r.daysLeft == Some(c.daysLeft.value - 1)
    ensures c.daysLeft == Some(0) ==> r == c
  {
    match c.daysLeft
    case Some(d) => if d >= 0 then c.(daysLeft := Some(if d - 1 > 0 then d - 1 else 0)) else c
    case None => c
  }

  function SkipDayStore(store: Store): (r: Store)
    ensures r.Keys == store.Keys
    ensures forall k :: k in store ==> r[k] == SkipDayCard(store[k])
    ensures WellKeyed(store) ==> WellKeyed(r)
  {
    map k | k in store :: SkipDayCard(store[k])
  }

  /** Skipping `n` days one at a time. */
  function SkipDays(c: Card, n: nat): Card {
    if n == 0 then c else SkipDayCard(SkipDays(c, n - 1))
  }

  /** Skipping `n` days brings a non-negative `daysLeft` to `max(0, d - n)`:
      a card not yet due becomes due after `daysLeft` skips and then stays
      at 0. */
  lemma {:induction false} SkipDaysCountsDown(c: Card, n: nat)
    requires c.daysLeft.Some? && c.daysLeft.value >= 0
    ensures SkipDays(c, n).daysLeft == Some(if c.daysLeft.value - n > 0 then c.daysLeft.value - n else 0)
    ensures SkipDays(c, n).counter == c.counter
  {
    if n > 0 {
      SkipDaysCountsDown(c, n - 1);
    }
  }

  /** Skipping a day is one day of ageing, except that it never takes a
      non-negative value below 0 and never touches a negative one. */
  lemma SkipDayVersusAgeing(c: Card)
    requires c.daysLeft.Some?
    ensures c.daysLeft.value >= 1 ==> SkipDayCard(c) == AgeCard(c, 1)
    ensures c.daysLeft.value == 0 && c.counter != Some(0) ==>
              SkipDayCard(c).daysLeft == Some(0) && AgeCard(c, 1).daysLeft == Some(-1)
    ensures c.daysLeft.value < 0 && c.counter != Some(0) ==>
              SkipDayCard(c) == c && AgeCard(c, 1).daysLeft == Some(c.daysLeft.value - 1)
  {
  }

  /** A card with counter 0 and 0 days left, the state of a new card. */
  function ResetCounters(c: Card): (r: Card)
    ensures r.front == c.front && r.back == c.back
    ensures IsDue(r) && r.counter == Some(0)
    ensures r.daysLeft == Some(0)
  {
    c.(counter := Some(0), daysLeft := Some(0))
  }

  /** The per-card reset button (flashcards.js:373-390): the card under
      `front` is reset if it is stored; an empty front or a missing card
      changes nothing. */
  function ResetCard(store: Store, front: string): (r: Store)
    ensures r.Keys == store.Keys
    ensures front in store && front != "" ==> r[front] == ResetCounters(store[front])
    ensures forall k :: k in store && k != front ==> r[k] == store[k]
    ensures front == "" || front !in store ==> r == store
    ensures WellKeyed(store) ==> WellKeyed(r)
  {
    if front == "" || front !in store then store
    else store[front := ResetCounters(store[front])]
  }

  /** The "reset all counters" button (flashcards.js:724-731). */
  function ResetAll(store: Store): (r: Store)
    ensures r.Keys == store.Keys
    ensures forall k :: k in store ==> r[k] == ResetCounters(store[k])
    ensures WellKeyed(store) ==> WellKeyed(r)
  {
    map k | k in store :: ResetCounters(store[k])
  }

  /** After a reset every card is due with 0 days left, and neither ageing
      nor skipping days makes it undue again. */
  lemma ResetCardsStayDue(store: Store, diffDays: nat, k: string)
    requires k in store
    ensures IsDue(ResetAll(store)[k]) && ResetAll(store)[k].daysLeft == Some(0)
    ensures IsDue(AgeStore(ResetAll(store), diffDays)[k])
    ensures IsDue(SkipDayStore(ResetAll(store))[k])
  {
  }
}

=== FILE: cardlist.dfy ===
/** The card-management list of flashcards.js: the search filter and the
    pagination of `loadCards`, the page buttons and page input, deleting a
    card, and merging an imported card file into the store. */
module CardList {
  import opened Wrappers
  import opened Cards
  import opened Sequences
  import opened TextCase

  // ---------------------------------------------------------------------
  // Search (flashcards.js:104-109)
  // ---------------------------------------------------------------------

  predicate StartsWith(s: string, p: string) {
    |p| <= |s| && s[..|p|] == p
  }

  /** `p` occurs in `s` starting at position `i`. */
  predicate OccursAt(s: string, p: string, i: int) {
    0 <= i && i + |p| <= |s| && s[i..i + |p|] == p
  }

  /** `s.includes(p)`, trying each start position from the left. */
  function Includes(s: string, p: string): (r: bool)
    ensures r <==> exists i :: OccursAt(s, p, i)
    decreases |s|
  {
    if StartsWith(s, p) then
      assert OccursAt(s, p, 0);
      true
    else if |s| == 0 then
      assert forall i :: !OccursAt(s, p, i);
      false
    else
      var r := Includes(s[1..], p);
      assert r ==> exists i :: OccursAt(s, p, i) by {
        if r {
          var i :| OccursAt(s[1..], p, i);
          forall k | 0 <= k < |p|
            ensures s[i + 1..i + 1 + |p|][k] == p[k]
          {
            assert p[k] == s[1..][i..i + |p|][k];
          }
          assert s[i + 1..i + 1 + |p|] == p;
          assert OccursAt(s, p, i + 1);
        }
      }
      assert (exists i :: OccursAt(s, p, i)) ==> r by {
        if i :| OccursAt(s, p, i) {
          assert i != 0;
          forall k | 0 <= k < |p|
            ensures s[1..][i - 1..i - 1 + |p|][k] == p[k]
          {
            assert p[k] == s[i..i + |p|][k];
          }
          assert s[1..][i - 1..i - 1 + |p|] == p;
          assert OccursAt(s[1..], p, i - 1);
        }
      }
      r
  }

  /** `c.front && c.front.toLowerCase().includes(searchLower)`. */
  predicate MatchesSearch(c: Card, search: string) {
    HasFront(c) && Includes(LowerString(c.front), LowerString(search))
  }

  /** The cards listed for a search: all of them for an empty search,
      otherwise exactly those whose lower-cased front contains the
      lower-cased search text, in store order. */
  function SearchCards(cards: seq<Card>, search: string): (r: seq<Card>)
    ensures search == "" ==> r == cards
    ensures search != "" ==> forall c :: c in r <==> c in cards && MatchesSearch(c, search)
    ensures multiset(r) <= multiset(cards)
  {
    if search == "" then cards else Filter(c => MatchesSearch(c, search), cards)
  }

  /** Searching ignores letter case: a front written in capitals is found by
      a search in small letters and the other way round. */
  lemma SearchIgnoresCase(c: Card, search: string)
    ensures MatchesSearch(c, search) <==> MatchesSearch(c, LowerString(search))
    ensures MatchesSearch(c, search) <==> MatchesSearch(c.(front := LowerString(c.front)), search)
  {
    LowerStringIdempotent(search);
    LowerStringIdempotent(c.front);
  }

  // ---------------------------------------------------------------------
  // Pagination (flashcards.js:124-132, 167-179)
  // ---------------------------------------------------------------------

  const PageSize: nat := 10

  /** `Math.ceil(n / pageSize)`. */
  function TotalPages(n: nat): (t: nat)
    ensures n <= t * PageSize < n + PageSize
  {
    (n + PageSize - 1) / PageSize
  }

  /** The page `loadCards` settles on: first lowered to the last page, then
      raised to 1; with no pages at all that is page 1. */
  function ClampPage(page: int, totalPages: nat): (p: int)
    ensures 1 <= p
    ensures totalPages > 0 ==> p <= totalPages
    ensures totalPages == 0 ==> p == 1
    ensures 1 <= page <= totalPages ==> p == page
    ensures totalPages > 0 && page > totalPages ==> p == totalPages
    ensures page < 1 ==> p == 1
  {
    var p := if page > totalPages then totalPages else page;
    if p < 1 then 1 else p
  }

  /** `cards.slice(start, start + pageSize)`, which stops early at the end of
      the list. */
  function PageSlice(cards: seq<Card>, start: nat): (r: seq<Card>)
    ensures |r| <= PageSize
    ensures start <= |cards| ==> |r| == (if |cards| - start < PageSize then |cards| - start else PageSize)
    ensures forall i :: 0 <= i < |r| ==> start + i < |cards| && r[i] == cards[start + i]
  {
    if start >= |cards| then []
    else if start + PageSize > |cards| then cards[start..]
    else cards[start..start + PageSize]
  }

  /** What `loadCards` leaves behind: the pagination state and the cards of
      the current page. */
  datatype ListView = ListView(currentPage: int, totalPages: nat, pageCards: seq<Card>)

  /** `loadCards(page)` over the `getAll()` snapshot `cards`, with the
      current search text; `current` is the page shown before, which an
      empty store leaves in place. */
  function LoadCards(cards: seq<Card>, search: string, page: int, current: int): (v: ListView)
    ensures |cards| == 0 ==> v == ListView(current, 1, [])
    ensures |cards| > 0 ==>
              var listed := SearchCards(cards, search);
              && v.totalPages == TotalPages(|listed|)
              && 1 <= v.currentPage <= (if v.totalPages == 0 then 1 else v.totalPages)
              && (1 <= page <= v.totalPages ==> v.currentPage == page)
              && (v.totalPages > 0 && page > v.totalPages ==> v.currentPage == v.totalPages)
              && (page < 1 ==> v.currentPage == 1)
              && |v.pageCards| <= PageSize
              && (forall i :: 0 <= i < |v.pageCards| ==>
                    && (v.currentPage - 1) * PageSize + i < |listed|
                    && v.pageCards[i] == listed[(v.currentPage - 1) * PageSize + i])
              && (v.currentPage < v.totalPages ==> |v.pageCards| == PageSize)
              && |v.pageCards| == (if |listed| - (v.currentPage - 1) * PageSize < PageSize
                                   then |listed| - (v.currentPage - 1) * PageSize else PageSize)
              && (v.totalPages > 0 ==> |v.pageCards| > 0)
  {
    if |cards| == 0 then ListView(current, 1, [])
    else
      var listed := SearchCards(cards, search);
      var total := TotalPages(|listed|);
      var p := ClampPage(page, total);
      ListView(p, total, PageSlice(listed, (p - 1) * PageSize))
  }

  /** Every listed card is on exactly one page: card `j` is entry `j % 10` of
      page `j / 10 + 1`, and that page exists. */
  lemma PagesCoverList(listed: seq<Card>, j: nat)
    requires j < |listed|
    ensures 1 <= j / PageSize + 1 <= TotalPages(|listed|)
    ensures j % PageSize < |PageSlice(listed, (j / PageSize) * PageSize)|
    ensures PageSlice(listed, (j / PageSize) * PageSize)[j % PageSize] == listed[j]
  {
  }

  /** The page input handler (flashcards.js:174-179): text that is not a
      number, or below 1, asks for page 1; beyond the last page asks for the
      last page. */
  function PageFromInput(parsed: Option<int>, totalPages: nat): (page: int)
    ensures parsed.Some? && 1 <= parsed.value <= totalPages ==> page == parsed.value
    ensures parsed.None? || parsed.value < 1 ==> page == (if 1 > totalPages then totalPages else 1)
    ensures parsed.Some? && parsed.value > totalPages ==> page == totalPages
  {
    var page := if parsed.None? || parsed.value < 1 then 1 else parsed.value;
    if page > totalPages then totalPages else page
  }

  /** The "previous page" and "next page" buttons (flashcards.js:167-173):
      the page they ask `loadCards` for, if any. */
  function PreviousPage(currentPage: int): (r: Option<int>)
    ensures r.Some? <==> currentPage > 1
    ensures r.Some? ==> r.value == currentPage - 1
  {
    if currentPage > 1 then Some(currentPage - 1) else None
  }

  function NextPage(currentPage: int, totalPages: nat): (r: Option<int>)
    ensures r.Some? <==> currentPage < totalPages
    ensures r.Some? ==> r.value == currentPage + 1
  {
    if currentPage < totalPages then Some(currentPage + 1) else None
  }

  /** Whatever the page buttons and the page input ask for, the page shown is
      a real page, and a step forwards or backwards from a valid page lands
      exactly one page away. */
  lemma PageNavigationStaysInRange(parsed: Option<int>, currentPage: int, totalPages: nat)
    requires totalPages > 0 && 1 <= currentPage <= totalPages
    ensures 1 <= ClampPage(PageFromInput(parsed, totalPages), totalPages) <= totalPages
    ensures PreviousPage(currentPage).Some? ==>
              ClampPage(PreviousPage(currentPage).value, totalPages) == currentPage - 1
    ensures NextPage(currentPage, totalPages).Some? ==>
              ClampPage(NextPage(currentPage, totalPages).value, totalPages) == currentPage + 1
  {
  }

  // ---------------------------------------------------------------------
  // Deleting (flashcards.js:184-207)
  // ---------------------------------------------------------------------

  /** `deleteCardByFront`: every card with that front goes; at most one
      exists. */
  function DeleteCard(store: Store, front: string): (r: Store)
    ensures front !in r
    ensures r.Keys == store.Keys - {front}
    ensures forall k :: k in r ==> r[k] == store[k]
    ensures WellKeyed(store) ==> WellKeyed(r)
  {
    store - {front}
  }

  // ---------------------------------------------------------------------
  // Import (flashcards.js:278-294)
  // ---------------------------------------------------------------------

  /** The whitespace `String.prototype.trim` removes, restricted to the
      ASCII and Latin-1 spaces and the byte-order mark. */
  predicate IsSpace(c: char) {
    c in {' ', '\t', '\n', '\r', '\U{000B}', '\U{000C}', '\U{00A0}', '\U{FEFF}'}
  }

  function TrimStart(s: string): (r: string)
    ensures |r| <= |s| && r == s[|s| - |r|..]
    ensures forall i :: 0 <= i < |s| - |r| ==> IsSpace(s[i])
    ensures |r| > 0 ==> !IsSpace(r[0])
  {
    if |s| > 0 && IsSpace(s[0]) then TrimStart(s[1..]) else s
  }

  function TrimEnd(s: string): (r: string)
    ensures |r| <= |s| && r == s[..|r|]
    ensures forall i :: |r| <= i < |s| ==> IsSpace(s[i])
    ensures |r| > 0 ==> !IsSpace(r[|r| - 1])
  {
    if |s| > 0 && IsSpace(s[|s| - 1]) then TrimEnd(s[..|s| - 1]) else s
  }

  /** `r` is the slice of `s` from `i` on, with only spaces before and
      after it. */
  predicate SpacedAround(s: string, r: string, i: int) {
    && 0 <= i && i + |r| <= |s| && r == s[i..i + |r|]
    && (forall k :: 0 <= k < i ==> IsSpace(s[k]))
    && (forall k :: i + |r| <= k < |s| ==> IsSpace(s[k]))
  }

  /** `s.trim()`: the slice of `s` left after removing the spaces at both
      ends, which starts and ends with a non-space. */
  function Trim(s: string): (r: string)
    ensures SpacedAround(s, r, |s| - |TrimStart(s)|)
    ensures |r| > 0 ==> !IsSpace(r[0]) && !IsSpace(r[|r| - 1])
  {
    var t := TrimStart(s);
    var r := TrimEnd(t);
    var i := |s| - |t|;
    assert SpacedAround(s, r, i);
    r
  }

  /** One element of the imported JSON array; a field the element does not
      have is `None`. */
  datatype ImportEntry = ImportEntry(front: Option<string>, back: Option<string>,
                                     daysLeft: Option<int>, counter: Option<int>)

  /** `card.front && card.back`: both present and non-empty. */
  predicate HasText(e: ImportEntry) {
    e.front.Some? && e.front.value != "" && e.back.Some? && e.back.value != ""
  }

  /** The front an entry is filed under. */
  function Key(e: ImportEntry): string
    requires HasText(e)
  {
    Trim(e.front.value)
  }

  /** The record `importCards` puts: trimmed texts, and 0 for a missing
      `daysLeft` or `counter`. */
  function ToCard(e: ImportEntry): (c: Card)
    requires HasText(e)
    ensures c.front == Key(e) && c.back == Trim(e.back.value)
    ensures c.daysLeft == Some(e.daysLeft.GetOr(0)) && c.counter == Some(e.counter.GetOr(0))
  {
    Card(Key(e), Trim(e.back.value), Some(e.daysLeft.GetOr(0)), Some(e.counter.GetOr(0)))
  }

  /** The entries the loop tries to put: those with both texts whose trimmed
      front is not among the fronts stored before the import started. */
  predicate IsNew(e: ImportEntry, existing: set<string>) {
    HasText(e) && Key(e) !in existing
  }

  /** The fronts the loop puts, in file order. */
  function NewKeys(entries: seq<ImportEntry>, existing: set<string>): (r: seq<string>)
    ensures forall k :: k in r ==> k !in existing
    ensures |r| <= |entries|
  {
    if |entries| == 0 then []
    else (if IsNew(entries[0], existing) then [Key(entries[0])] else []) + NewKeys(entries[1..], existing)
  }

  predicate NoRepeats(s: seq<string>) {
    forall i, j :: 0 <= i < j < |s| ==> s[i] != s[j]
  }

  lemma NoRepeatsCons(k: string, s: seq<string>)
    ensures NoRepeats([k] + s) <==> k !in s && NoRepeats(s)
  {
    var t := [k] + s;
    if NoRepeats(t) {
      forall i, j | 0 <= i < j < |s|
        ensures s[i] != s[j]
      {
        assert t[i + 1] == s[i] && t[j + 1] == s[j];
      }
      forall j | 0 <= j < |s|
        ensures s[j] != k
      {
        assert t[0] != t[j + 1];
      }
    }
  }

  /** The import loop from the current entry on. `existing` is the snapshot of
      stored fronts taken before the loop, `added` the cards put so far. A put
      whose front is already taken fails the unique `front` index, rejects the
      awaited promise and aborts the transaction: `None`. */
  function ImportLoop(existing: set<string>, added: Store, entries: seq<ImportEntry>): (r: Option<Store>)
    // A completed loop only adds: the cards put before stay as they are, and
    // every added front was not stored before the import.
    ensures r.Some? ==> forall k :: k in added ==> k in r.value && r.value[k] == added[k]
    ensures r.Some? ==> forall k :: k in r.value ==> k in added || k !in existing
    decreases |entries|
  {
    if |entries| == 0 then Some(added)
    else
      var e := entries[0];
      if !IsNew(e, existing) then ImportLoop(existing, added, entries[1..])
      else if Key(e) in added then None
      else ImportLoop(existing, added[Key(e) := ToCard(e)], entries[1..])
  }

  /** None of the fronts `ks` is among the cards `m` put so far. */
  predicate Disjoint(ks: seq<string>, m: Store) {
    forall k :: k in ks ==> k !in m
  }

  lemma DisjointStep(a: string, ks: seq<string>, m: Store, c: Card)
    ensures Disjoint([a] + ks, m) <==> a !in m && Disjoint(ks, m)
    ensures Disjoint(ks, m[a := c]) <==> a !in ks && Disjoint(ks, m)
  {
    assert forall k :: k in [a] + ks <==> k == a || k in ks;
  }

  /** The loop completes exactly when no front repeats among the new
      entries or the cards already put. */
  lemma {:induction false} ImportLoopSucceeds(existing: set<string>, added: Store, entries: seq<ImportEntry>)
    ensures ImportLoop(existing, added, entries).Some? <==>
              NoRepeats(NewKeys(entries, existing)) && Disjoint(NewKeys(entries, existing), added)
    decreases |entries|
  {
    if |entries| > 0 {
      var e := entries[0];
      var rest := entries[1..];
      var ks := NewKeys(rest, existing);
      if IsNew(e, existing) {
        assert NewKeys(entries, existing) == [Key(e)] + ks;
        NoRepeatsCons(Key(e), ks);
        DisjointStep(Key(e), ks, added, ToCard(e));
        if Key(e) !in added {
          ImportLoopSucceeds(existing, added[Key(e) := ToCard(e)], rest);
        }
      } else {
        assert NewKeys(entries, existing) == ks;
        ImportLoopSucceeds(existing, added, rest);
      }
    }
  }

  /** A completed loop has put one card per new front on top of `added`,
      leaving the cards put before untouched. */
  lemma {:induction false} ImportLoopKeys(existing: set<string>, added: Store, entries: seq<ImportEntry>)
    requires ImportLoop(existing, added, entries).Some?
    ensures forall k :: k in ImportLoop(existing, added, entries).value <==> k in added || k in NewKeys(entries, existing)
    ensures forall k :: k in added ==> ImportLoop(existing, added, entries).value[k] == added[k]
    decreases |entries|
  {
    if |entries| > 0 {
      var e := entries[0];
      var rest := entries[1..];
      if IsNew(e, existing) {
        assert NewKeys(entries, existing) == [Key(e)] + NewKeys(rest, existing);
        ImportLoopKeys(existing, added[Key(e) := ToCard(e)], rest);
      } else {
        assert NewKeys(entries, existing) == NewKeys(rest, existing);
        ImportLoopKeys(existing, added, rest);
      }
    }
  }

  /** On completion every new entry is stored as its trimmed record. */
  lemma {:induction false} ImportLoopCards(existing: set<string>, added: Store, entries: seq<ImportEntry>, i: nat)
    requires ImportLoop(existing, added, entries).Some?
    requires i < |entries| && IsNew(entries[i], existing)
    ensures
      var m := ImportLoop(existing, added, entries).value;
      Key(entries[i]) in m && m[Key(entries[i])] == ToCard(entries[i])
    decreases |entries|
  {
    var e := entries[0];
    var rest := entries[1..];
    if i == 0 {
      var added' := added[Key(e) := ToCard(e)];
      assert ImportLoop(existing, added, entries) == ImportLoop(existing, added', rest);
      assert Key(e) in added' && added'[Key(e)] == ToCard(e);
    } else {
      assert entries[i] == rest[i - 1];
      if IsNew(e, existing) {
        ImportLoopCards(existing, added[Key(e) := ToCard(e)], rest, i - 1);
      } else {
        ImportLoopCards(existing, added, rest, i - 1);
      }
    }
  }

  /** What the completed loop adds: one card per new front, none of them
      already stored. */
  lemma ImportedCards(store: Store, entries: seq<ImportEntry>)
    requires ImportLoop(store.Keys, map[], entries).Some?
    ensures
      var added := ImportLoop(store.Keys, map[], entries).value;
      && NoRepeats(NewKeys(entries, store.Keys))
      && (forall k :: k in added <==> k in NewKeys(entries, store.Keys))
      && (forall k :: k in added ==> k !in store && added[k].front == k)
      && (forall i :: 0 <= i < |entries| && IsNew(entries[i], store.Keys) ==>
            Key(entries[i]) in added && added[Key(entries[i])] == ToCard(entries[i]))
  {
    var added := ImportLoop(store.Keys, map[], entries).value;
    ImportLoopSucceeds(store.Keys, map[], entries);
    ImportLoopKeys(store.Keys, map[], entries);
    forall i | 0 <= i < |entries| && IsNew(entries[i], store.Keys)
      ensures Key(entries[i]) in added && added[Key(entries[i])] == ToCard(entries[i])
    {
      ImportLoopCards(store.Keys, map[], entries, i);
    }
    forall k | k in added
      ensures added[k].front == k
    {
      var i := NewKeyOrigin(entries, store.Keys, k);
      ImportLoopCards(store.Keys, map[], entries, i);
    }
  }

  /** Every new front comes from an entry of the file. */
  lemma {:induction false} NewKeyOrigin(entries: seq<ImportEntry>, existing: set<string>, k: string) returns (i: nat)
    requires k in NewKeys(entries, existing)
    ensures i < |entries| && IsNew(entries[i], existing) && Key(entries[i]) == k
  {
    if IsNew(entries[0], existing) && Key(entries[0]) == k {
      i := 0;
    } else {
      var j := NewKeyOrigin(entries[1..], existing, k);
      i := j + 1;
    }
  }

  /** `importCards` after the file was read and parsed (flashcards.js:272-294).
      Cards already stored are never touched. If two new entries share a
      trimmed front, the second put fails and the whole import is rolled
      back; otherwise every new entry is added. */
  function ImportCards(store: Store, entries: seq<ImportEntry>): (r: Store)
    ensures forall k :: k in store ==> k in r && r[k] == store[k]
    ensures !NoRepeats(NewKeys(entries, store.Keys)) ==> r == store
    ensures NoRepeats(NewKeys(entries, store.Keys)) ==>
              && (forall k :: k in r <==> k in store || k in NewKeys(entries, store.Keys))
              && (forall i :: 0 <= i < |entries| && IsNew(entries[i], store.Keys) ==>
                    Key(entries[i]) in r && r[Key(entries[i])] == ToCard(entries[i]))
    ensures WellKeyed(store) ==> WellKeyed(r)
  {
    var outcome := ImportLoop(store.Keys, map[], entries);
    ImportLoopSucceeds(store.Keys, map[], entries);
    if outcome.None? then store
    else
      ImportedCards(store, entries);
      store + outcome.value
  }
}

=== FILE: cards.dfy ===
/** The persistent flashcard record and the card store.

    A card saved from the dictionary popup carries only `front` and `back`;
    `daysLeft` and `counter` appear once the card is imported, reset or
    reviewed. The two scheduling fields are therefore optional here, and every
    rule below says what it does with a missing one. */
module Cards {
  import opened Wrappers

  datatype Card = Card(front: string, back: string, daysLeft: Option<int>, counter: Option<int>)

  /** The `cards` object store, reached through its unique `front` index:
      one card per front text. */
  type Store = map<string, Card>

  /** Every card is filed under its own front. */
  predicate WellKeyed(store: Store) {
    forall k :: k in store ==> store[k].front == k
  }

  /** `cards` is a `getAll()` snapshot of `store`: every card of the
      snapshot is the one stored under its front, and every stored card
      appears in it exactly once. */
  predicate SnapshotOf(cards: seq<Card>, store: Store) {
    && (forall i :: 0 <= i < |cards| ==> cards[i].front in store && store[cards[i].front] == cards[i])
    && (forall k :: k in store ==> store[k] in cards)
    && (forall i, j :: 0 <= i < j < |cards| ==> cards[i] != cards[j])
  }

  /** `c.front` is truthy in JavaScript: not the empty string. */
  predicate HasFront(c: Card) {
    |c.front| > 0
  }

  /** `c.daysLeft <= 0`; a missing `daysLeft` compares false. */
  predicate IsDue(c: Card) {
    c.daysLeft.Some? && c.daysLeft.value <= 0
  }

  /** The sort key of a due card. */
  function Days(c: Card): int {
    c.daysLeft.GetOr(0)
  }
}

=== FILE: ordering.dfy ===
/** The smart-mode ordering `cards.sort((a, b) => a.daysLeft - b.daysLeft)`.

    `Array.prototype.sort` is stable, so the result is the unique sequence
    that is sorted by `daysLeft`, is a permutation of the input and keeps
    cards with equal `daysLeft` in their input order. `SortByDays` computes
    it by insertion; `StableSortUnique` shows that any other stable sort
    gives the same sequence. */
module Ordering {
  import opened Cards

  predicate SortedByDays(s: seq<Card>) {
    forall i, j :: 0 <= i < j < |s| ==> Days(s[i]) <= Days(s[j])
  }

  /** The cards of `s` whose `daysLeft` is `d`, in order. */
  function WithDays(s: seq<Card>, d: int): (r: seq<Card>)
    ensures forall c :: c in r <==> c in s && Days(c) == d
  {
    if |s| == 0 then []
    else (if Days(s[0]) == d then [s[0]] else []) + WithDays(s[1..], d)
  }

  lemma {:induction false} WithDaysAppend(a: seq<Card>, b: seq<Card>, d: int)
    ensures WithDays(a + b, d) == WithDays(a, d) + WithDays(b, d)
  {
    if |a| == 0 {
      assert a + b == b;
    } else {
      assert (a + b)[1..] == a[1..] + b;
      WithDaysAppend(a[1..], b, d);
    }
  }

  /** Places `x` in front of the first card whose key is not smaller. */
  function InsertByDays(x: Card, s: seq<Card>): (r: seq<Card>)
    ensures |r| == |s| + 1
    ensures multiset(r) == multiset(s) + multiset{x}
  {
    if |s| == 0 then [x]
    else if Days(x) <= Days(s[0]) then [x] + s
    else
      assert s == [s[0]] + s[1..];
      [s[0]] + InsertByDays(x, s[1..])
  }

  /** Insertion into a sorted sequence keeps it sorted. */
  lemma {:induction false} InsertSorted(x: Card, s: seq<Card>)
    requires SortedByDays(s)
    ensures SortedByDays(InsertByDays(x, s))
  {
    if |s| > 0 && Days(x) > Days(s[0]) {
      var t := s[1..];
      var r := InsertByDays(x, t);
      InsertSorted(x, t);
      forall j | 0 <= j < |r|
        ensures Days(s[0]) <= Days(r[j])
      {
        assert r[j] in multiset(r);
        if r[j] != x {
          assert r[j] in multiset(t);
          var k :| 0 <= k < |t| && t[k] == r[j];
          assert s[k + 1] == r[j];
        }
      }
      ConsSorted(s[0], r);
      assert InsertByDays(x, s) == [s[0]] + r;
    }
  }

  lemma ConsSorted(a: Card, r: seq<Card>)
    requires SortedByDays(r)
    requires forall j :: 0 <= j < |r| ==> Days(a) <= Days(r[j])
    ensures SortedByDays([a] + r)
  {
    var u := [a] + r;
    forall i, j | 0 <= i < j < |u|
      ensures Days(u[i]) <= Days(u[j])
    {
      assert u[j] == r[j - 1];
      if i > 0 {
        assert u[i] == r[i - 1];
      }
    }
  }

  function SortByDays(s: seq<Card>): (r: seq<Card>)
    ensures |r| == |s|
    ensures multiset(r) == multiset(s)
    ensures SortedByDays(r)
  {
    if |s| == 0 then []
    else
      assert s == [s[0]] + s[1..];
      InsertSorted(s[0], SortByDays(s[1..]));
      InsertByDays(s[0], SortByDays(s[1..]))
  }

  lemma {:induction false} InsertStable(x: Card, s: seq<Card>, d: int)
    ensures WithDays(InsertByDays(x, s), d) == WithDays([x], d) + WithDays(s, d)
  {
    if |s| == 0 {
      assert [x] + s == [x];
    } else if Days(x) <= Days(s[0]) {
      WithDaysAppend([x], s, d);
    } else {
      assert s == [s[0]] + s[1..];
      WithDaysAppend([s[0]], InsertByDays(x, s[1..]), d);
      WithDaysAppend([s[0]], s[1..], d);
      InsertStable(x, s[1..], d);
    }
  }

  /** Cards with equal `daysLeft` keep their input order. */
  lemma {:induction false} SortStable(s: seq<Card>, d: int)
    ensures WithDays(SortByDays(s), d) == WithDays(s, d)
  {
    if |s| > 0 {
      assert s == [s[0]] + s[1..];
      InsertStable(s[0], SortByDays(s[1..]), d);
      SortStable(s[1..], d);
      WithDaysAppend([s[0]], s[1..], d);
    }
  }

  /** The first card of a non-empty sequence is the first of its key group. */
  lemma {:induction false} HeadOfGroup(s: seq<Card>)
    requires |s| > 0
    ensures WithDays(s, Days(s[0])) == [s[0]] + WithDays(s[1..], Days(s[0]))
  {
    assert s == [s[0]] + s[1..];
    WithDaysAppend([s[0]], s[1..], Days(s[0]));
  }

  /** Sorted sequences with equal key groups start with the same card. */
  lemma {:induction false} SameGroupsSameHead(u: seq<Card>, v: seq<Card>)
    requires SortedByDays(u) && SortedByDays(v)
    requires forall d :: WithDays(u, d) == WithDays(v, d)
    requires |u| > 0
    ensures |v| > 0 && u[0] == v[0]
  {
    var du := Days(u[0]);
    HeadOfGroup(u);
    assert u[0] in WithDays(v, du);
    var j :| 0 <= j < |v| && v[j] == u[0];
    var dv := Days(v[0]);
    assert dv <= du;
    HeadOfGroup(v);
    assert v[0] in WithDays(u, dv);
    var i :| 0 <= i < |u| && u[i] == v[0];
    assert du <= dv;
    assert WithDays(u, du)[0] == u[0];
    assert WithDays(v, du)[0] == v[0];
  }

  /** Dropping a common first card keeps the key groups equal. */
  lemma {:induction false} SameGroupsTail(u: seq<Card>, v: seq<Card>, d: int)
    requires |u| > 0 && |v| > 0 && u[0] == v[0]
    requires WithDays(u, d) == WithDays(v, d)
    ensures WithDays(u[1..], d) == WithDays(v[1..], d)
  {
    assert u == [u[0]] + u[1..];
    assert v == [v[0]] + v[1..];
    WithDaysAppend([u[0]], u[1..], d);
    WithDaysAppend([v[0]], v[1..], d);
    var h := WithDays([u[0]], d);
    assert WithDays(u[1..], d) == WithDays(u, d)[|h|..];
    assert WithDays(v[1..], d) == WithDays(v, d)[|h|..];
  }

  /** Two sorted sequences with the same cards of every key, in the same
      order, are equal. */
  lemma {:induction false} SortedSameGroupsEqual(u: seq<Card>, v: seq<Card>)
    requires SortedByDays(u) && SortedByDays(v)
    requires forall d :: WithDays(u, d) == WithDays(v, d)
    ensures u == v
    decreases |u| + |v|
  {
    if |u| == 0 && |v| > 0 {
      HeadOfGroup(v);
      assert false;
    } else if |u| > 0 {
      SameGroupsSameHead(u, v);
      forall d
        ensures WithDays(u[1..], d) == WithDays(v[1..], d)
      {
        SameGroupsTail(u, v, d);
      }
      SortedSameGroupsEqual(u[1..], v[1..]);
      assert u == [u[0]] + u[1..];
      assert v == [v[0]] + v[1..];
    }
  }

  /** Any stable sort of `s` by `daysLeft` (in particular the engine's
      `Array.prototype.sort`) yields `SortByDays(s)`. */
  lemma StableSortUnique(s: seq<Card>, t: seq<Card>)
    requires SortedByDays(t)
    requires forall d :: WithDays(t, d) == WithDays(s, d)
    ensures t == SortByDays(s)
  {
    forall d
      ensures WithDays(t, d) == WithDays(SortByDays(s), d)
    {
      SortStable(s, d);
    }
    SortedSameGroupsEqual(t, SortByDays(s));
  }
}

=== FILE: queuebuilder.dfy ===
/** The session queue built by `loadFlashcards` (flashcards.js) from the
    `getAll()` snapshot of the card store: drop cards without a front, then
    either keep the due cards sorted by `daysLeft` (smart mode) or shuffle
    everything (any other mode), then optionally cut the queue down to the
    requested count and shuffle that cut. */
module QueueBuilder {
  import opened Wrappers
  import opened Cards
  import opened Sequences
  import opened Shuffle
  import opened Ordering

  /** `flashcardSession.modeType`: `null` until a mode button is pressed,
      then the button's `data-mode`. Only `"smart"` is singled out; every
      other value behaves like random mode. */
  datatype Mode = Unselected | Smart | Random

  /** The `Math.random()` draws of one queue build: those of the mode
      shuffle and those of the shuffle after the count limit. */
  datatype Draws = Draws(mode: seq<int>, limit: seq<int>)

  /** Cards with a front: `filter((c) => c.front)`. */
  function Eligible(cards: seq<Card>): (r: seq<Card>)
    ensures forall c :: c in r <==> c in cards && HasFront(c)
    ensures multiset(r) <= multiset(cards)
  {
    Filter(HasFront, cards)
  }

  /** The cards a session in `mode` draws from, before ordering. */
  function Pool(cards: seq<Card>, mode: Mode): (r: seq<Card>)
    ensures forall c :: c in r <==> c in cards && HasFront(c) && (mode == Smart ==> IsDue(c))
  {
    if mode == Smart then Filter(IsDue, Eligible(cards)) else Eligible(cards)
  }

  /** `!isNaN(count) && count > 0 && count < cards.length`. */
  predicate LimitApplies(count: Option<int>, n: nat) {
    count.Some? && 0 < count.value < n
  }

  /** Every draw is one `Math.random()` can produce, and there is one per
      loop iteration of each shuffle that runs. */
  predicate ValidDraws(cards: seq<Card>, mode: Mode, count: Option<int>, draws: Draws) {
    && (mode != Smart ==> ShuffleDraws(|Pool(cards, mode)|, draws.mode))
    && (LimitApplies(count, |Pool(cards, mode)|) ==> ShuffleDraws(count.value, draws.limit))
  }

  /** The queue after the mode step (flashcards.js:432-443). */
  function Staged(cards: seq<Card>, mode: Mode, draws: Draws): (r: seq<Card>)
    requires mode != Smart ==> ShuffleDraws(|Pool(cards, mode)|, draws.mode)
    ensures |r| == |Pool(cards, mode)|
    ensures multiset(r) == multiset(Pool(cards, mode))
    ensures mode == Smart ==> SortedByDays(r)
  {
    if mode == Smart then SortByDays(Pool(cards, mode))
    else ShuffleArray(Pool(cards, mode), draws.mode)
  }

  /** In a sorted sequence everything before a cut sorts no later than
      everything after it. */
  lemma PrefixBeforeSuffix(s: seq<Card>, k: nat)
    requires SortedByDays(s) && k <= |s|
    ensures forall c, c' :: c in s[..k] && c' in s[k..] ==> Days(c) <= Days(c')
  {
    forall c, c' | c in s[..k] && c' in s[k..]
      ensures Days(c) <= Days(c')
    {
      var i :| 0 <= i < k && s[i] == c;
      var j :| k <= j < |s| && s[j] == c';
    }
  }

  /** The queue `loadFlashcards` stores in the session. */
  function LoadQueue(cards: seq<Card>, mode: Mode, count: Option<int>, draws: Draws): (q: seq<Card>)
    requires ValidDraws(cards, mode, count, draws)
    // Every queued card has a front and comes from the snapshot; smart mode
    // queues only due cards.
    ensures forall c :: c in q ==> c in cards && HasFront(c)
    ensures mode == Smart ==> forall c :: c in q ==> IsDue(c)
    // Without a limit the queue is a permutation of the whole pool, and in
    // smart mode it is ordered from the most overdue card on.
    ensures !LimitApplies(count, |Pool(cards, mode)|) ==>
              |q| == |Pool(cards, mode)| && multiset(q) == multiset(Pool(cards, mode))
    ensures !LimitApplies(count, |Pool(cards, mode)|) && mode == Smart ==> SortedByDays(q)
    ensures !LimitApplies(count, |Pool(cards, mode)|) && mode == Smart ==> q == SortByDays(Pool(cards, mode))
    // With a limit it holds exactly `count` cards: a permutation of the first
    // `count` after the mode step, which in smart mode are the most overdue.
    ensures LimitApplies(count, |Pool(cards, mode)|) ==>
              |q| == count.value && multiset(q) == multiset(Staged(cards, mode, draws)[..count.value])
    ensures LimitApplies(count, |Pool(cards, mode)|) && mode == Smart ==>
              forall c, c' :: c in q && c' in Staged(cards, mode, draws)[count.value..] ==> Days(c) <= Days(c')
  {
    var staged := Staged(cards, mode, draws);
    assert forall c :: c in staged ==> c in Pool(cards, mode) by {
      forall c | c in staged
        ensures c in Pool(cards, mode)
      {
        assert c in multiset(staged);
      }
    }
    if LimitApplies(count, |staged|) then
      var k := count.value;
      var q := ShuffleArray(staged[..k], draws.limit);
      assert forall c :: c in q ==> c in staged by {
        forall c | c in q
          ensures c in staged
        {
          assert c in multiset(q);
          assert c in staged[..k];
        }
      }
      assert mode == Smart ==> forall c, c' :: c in q && c' in staged[k..] ==> Days(c) <= Days(c') by {
        if mode == Smart {
          PrefixBeforeSuffix(staged, k);
          forall c, c' | c in q && c' in staged[k..]
            ensures Days(c) <= Days(c')
          {
            assert c in multiset(q);
            assert c in staged[..k];
          }
        }
      }
      q
    else
      staged
  }

  /** Whatever the limit, the queue is drawn from the pool without repeating
      a card: it is a sub-multiset of the pool. */
  lemma QueueDrawnFromPool(cards: seq<Card>, mode: Mode, count: Option<int>, draws: Draws)
    requires ValidDraws(cards, mode, count, draws)
    ensures multiset(LoadQueue(cards, mode, count, draws)) <= multiset(Pool(cards, mode))
  {
    if LimitApplies(count, |Pool(cards, mode)|) {
      PrefixSubMultiset(Staged(cards, mode, draws), count.value);
    }
  }
}

=== FILE: review.dfy ===
/** The review state machine of flashcards.js: the session record
    `flashcardSession`, the "know" and "don't know" buttons, the mode buttons,
    and what `showFlashcard` displays.

    Each click handler is a function from the session and the card store to
    their next values. The store writes the handlers start asynchronously
    are applied in order, one click at a time. */
module Review {
  import opened Wrappers
  import opened Cards
  import opened Spacing
  import opened Sequences
  import opened Shuffle
  import opened QueueBuilder

  /** `flashcardSession` (flashcards.js:16-21). The queue holds copies of
      the cards taken when the session was built. */
  datatype Session = Session(queue: seq<Card>, index: nat, showAnswer: bool, mode: Mode)

  datatype State = State(session: Session, store: Store)

  /** The review position never runs past the end of the queue. */
  predicate Valid(s: Session) {
    s.index <= |s.queue|
  }

  /** All cards of the queue have been reviewed. */
  predicate Exhausted(s: Session) {
    s.index >= |s.queue|
  }

  /** Cards still to be reviewed in this session. */
  function Remaining(s: Session): nat
    requires Valid(s)
  {
    |s.queue| - s.index
  }

  // ---------------------------------------------------------------------
  // Scheduling updates of a stored card
  // ---------------------------------------------------------------------

  /** The stored card after "know" in smart mode: one more success (a
      missing counter counts as 0, `counter || 0`) and the interval of the
      new counter as its days left. Nothing else of the card changes. */
  function Promote(c: Card): (r: Card)
    ensures r.front == c.front && r.back == c.back
    ensures r.counter.Some? && r.counter.value == c.counter.GetOr(0) + 1
    ensures r.daysLeft == Some(Interval(r.counter.value))
  {
    var n := c.counter.GetOr(0) + 1;
    c.(counter := Some(n), daysLeft := Some(Interval(n)))
  }

  /** `counter <= 3 ? (counter == 0 ? 0 : 1) : 3`. A missing counter is
      `undefined`, for which `undefined <= 3` is false. */
  function DecayCounter(counter: Option<int>): (r: int)
    ensures r == 0 || r == 1 || r == 3
    ensures r == 0 <==> counter == Some(0)
    ensures r == 3 <==> counter.None? || counter.value > 3
  {
    match counter
    case None => 3
    case Some(n) => if n <= 3 then (if n == 0 then 0 else 1) else 3
  }

  /** The stored card after the "don't know" commit in smart mode. */
  function Demote(c: Card): (r: Card)
    ensures r.front == c.front && r.back == c.back
    ensures r.counter == Some(DecayCounter(c.counter))
    ensures r.daysLeft == Some(Interval(DecayCounter(c.counter)))
  {
    var n := DecayCounter(c.counter);
    c.(counter := Some(n), daysLeft := Some(Interval(n)))
  }

  /** The penalty curve for a non-negative counter: 0 stays 0, 1 to 3 fall
      to 1, 4 and above fall to 3. It never raises the counter and is
      monotone. */
  lemma DecayCounterShape(n: int, m: int)
    requires 0 <= n
    ensures n == 0 ==> DecayCounter(Some(n)) == 0
    ensures 1 <= n <= 3 ==> DecayCounter(Some(n)) == 1
    ensures n >= 4 ==> DecayCounter(Some(n)) == 3
    ensures 0 <= DecayCounter(Some(n)) <= n
    ensures n <= m ==> DecayCounter(Some(n)) <= DecayCounter(Some(m))
  {
  }

  /** After a "don't know" commit in smart mode a card is due again within
      two days, whatever its counter was. */
  lemma DemotedSoon(c: Card)
    ensures 0 <= Demote(c).daysLeft.value <= 2
  {
    var n := DecayCounter(c.counter);
    assert 0 <= Interval(n) <= 2 by {
      FirstIntervals();
      assert n == 0 || n == 1 || n == 3;
    }
  }

  /** A card whose counter is missing is treated as counter 0 by "know",
      but lands on counter 3 (two days) after "don't know". */
  lemma MissingCounterAsymmetry(c: Card)
    requires c.counter.None?
    ensures Promote(c).counter == Some(1) && Promote(c).daysLeft == Some(0)
    ensures Demote(c).counter == Some(3) && Demote(c).daysLeft == Some(2)
  {
    PromoteMissing(c);
    DemoteMissing(c);
  }

  lemma PromoteMissing(c: Card)
    requires c.counter.None?
    ensures Promote(c).counter == Some(1) && Promote(c).daysLeft == Some(0)
  {
    FirstIntervals();
  }

  lemma DemoteMissing(c: Card)
    requires c.counter.None?
    ensures Demote(c).counter == Some(3) && Demote(c).daysLeft == Some(2)
  {
    FirstIntervals();
  }

  /** The store after a scheduling write to the card filed under `front`:
      the card is replaced by `update` of itself if it is found; a missing
      card is skipped silently. */
  function WriteBack(store: Store, front: string, update: Card -> Card): (r: Store)
    ensures front in store ==> r == store[front := update(store[front])]
    ensures front !in store ==> r == store
  {
    if front in store then store[front := update(store[front])] else store
  }

  // ---------------------------------------------------------------------
  // Click handlers
  // ---------------------------------------------------------------------

  /** The "know" button (flashcards.js:534-569). */
  function Know(st: State): (r: State)
    // Past the end of the queue nothing happens.
    ensures Exhausted(st.session) ==> r == st
    // Otherwise the session moves to the next card, answer hidden; the
    // queue and mode are untouched.
    ensures !Exhausted(st.session) ==>
              r.session == st.session.(index := st.session.index + 1, showAnswer := false)
    // In smart mode the stored card under the current front is promoted;
    // in any other mode, or if it is not stored, the store is untouched.
    ensures !Exhausted(st.session) && st.session.mode == Smart ==>
              r.store == WriteBack(st.store, st.session.queue[st.session.index].front, Promote)
    ensures Exhausted(st.session) || st.session.mode != Smart ==> r.store == st.store
  {
    var s := st.session;
    if s.index >= |s.queue| then st
    else
      var store := if s.mode == Smart then WriteBack(st.store, s.queue[s.index].front, Promote) else st.store;
      State(s.(index := s.index + 1, showAnswer := false), store)
  }

  /** The draw `Math.floor(Math.random() * (maxIndex - minIndex + 1))` of a
      "don't know" commit, with `minIndex = 2` and `maxIndex` the length of
      the rest of the queue. */
  predicate DontKnowDraw(s: Session, f: int) {
    s.index < |s.queue| && s.showAnswer ==> FloorDraw(|s.queue| - s.index - 2, f)
  }

  /** Where `remaining.splice(2 + f, 0, card)` puts the copy in the rest of
      the queue, of length `tailLength`: from the third slot on when there are
      at least two cards left, at the end otherwise. */
  function InsertOffset(tailLength: nat, f: int): (p: nat)
    requires FloorDraw(tailLength - 1, f)
    ensures p <= tailLength
    ensures tailLength >= 2 ==> 2 <= p && p == 2 + f
    ensures tailLength < 2 ==> p == tailLength
  {
    if tailLength >= 2 then 2 + f else tailLength
  }

  /** The offset is the one `Array.prototype.splice` really uses for the
      start `2 + f`: with two or more cards left that start is already in
      range, and with fewer `splice` clamps it to the end of the tail. */
  lemma InsertOffsetIsSpliceStart(tailLength: nat, f: int)
    requires FloorDraw(tailLength - 1, f)
    ensures InsertOffset(tailLength, f) == SpliceStart(2 + f, tailLength)
  {
  }

  /** Where the copy of the current card lands in the new queue: never on
      the next card while another card is left, at least two cards after the
      next one while two are left, and at the very end otherwise. */
  function CopyPosition(s: Session, f: int): (p: nat)
    requires s.index < |s.queue|
    requires FloorDraw(|s.queue| - s.index - 2, f)
    ensures s.index + 1 <= p <= |s.queue|
    ensures |s.queue| - s.index - 1 >= 1 ==> s.index + 2 <= p
    ensures |s.queue| - s.index - 1 >= 2 ==> s.index + 3 <= p && p == s.index + 3 + f
    ensures |s.queue| - s.index - 1 < 2 ==> p == |s.queue|
  {
    s.index + 1 + InsertOffset(|s.queue| - s.index - 1, f)
  }

  /** `queue.slice(0, i + 1).concat(remaining)` after
      `remaining.splice(offset, 0, queue[i])`: the queue with a second copy
      of `queue[i]` at position `i + 1 + offset`. */
  function Requeue(queue: seq<Card>, i: nat, offset: nat): (r: seq<Card>)
    requires i < |queue| && offset <= |queue| - i - 1
    ensures |r| == |queue| + 1
    ensures r[..i + 1] == queue[..i + 1]
    ensures r[i + 1 + offset] == queue[i]
    ensures offset >= 1 ==> r[i + 1] == queue[i + 1]
    ensures RemoveAt(r, i + 1 + offset) == queue
    ensures multiset(r) == multiset(queue) + multiset{queue[i]}
  {
    var r := queue[..i + 1] + InsertAt(queue[i + 1..], offset, queue[i]);
    assert r == InsertAt(queue, i + 1 + offset, queue[i]);
    InsertThenRemove(queue, i + 1 + offset, queue[i]);
    r
  }

  /** The "don't know" button (flashcards.js:571-627). The first press shows
      the answer; a second press re-queues a copy of the card further on and
      moves to the next card. The card itself stays where it was. */
  function DontKnow(st: State, f: int): (r: State)
    requires DontKnowDraw(st.session, f)
    // Past the end of the queue nothing happens.
    ensures Exhausted(st.session) ==> r == st
    // First press: only the answer is revealed.
    ensures !Exhausted(st.session) && !st.session.showAnswer ==>
              r == st.(session := st.session.(showAnswer := true))
    // Second press: see `CommitDontKnow`.
    ensures !Exhausted(st.session) && st.session.showAnswer ==> r == CommitDontKnow(st, f)
    ensures Exhausted(st.session) || !st.session.showAnswer || st.session.mode != Smart ==>
              r.store == st.store
  {
    var s := st.session;
    if s.index >= |s.queue| then st
    else if !s.showAnswer then st.(session := s.(showAnswer := true))
    else CommitDontKnow(st, f)
  }

  /** The queue after the second "don't know" press: the old queue with a
      copy of the current card at `CopyPosition`. Every card up to the
      current one keeps its place, the next card is still shown next, and no
      card is lost. */
  function RequeueCurrent(s: Session, f: int): (q: seq<Card>)
    requires DontKnowDraw(s, f)
    requires !Exhausted(s) && s.showAnswer
    ensures |q| == |s.queue| + 1
    ensures var p := CopyPosition(s, f); q[p] == s.queue[s.index] && RemoveAt(q, p) == s.queue
    ensures q[..s.index + 1] == s.queue[..s.index + 1]
    ensures |s.queue| - s.index >= 2 ==> q[s.index + 1] == s.queue[s.index + 1]
    ensures multiset(q) == multiset(s.queue) + multiset{s.queue[s.index]}
  {
    var p := CopyPosition(s, f);
    assert s.index + 1 <= p <= |s.queue| && (|s.queue| - s.index >= 2 ==> s.index + 2 <= p);
    RequeueAt(s.queue, s.index, p)
  }

  /** `Requeue` with the copy's position `p` in the new queue given instead
      of its offset in the rest of the queue. */
  function RequeueAt(queue: seq<Card>, i: nat, p: nat): (q: seq<Card>)
    requires i < |queue| && i + 1 <= p <= |queue|
    requires |queue| - i >= 2 ==> i + 2 <= p
    ensures |q| == |queue| + 1
    ensures q[p] == queue[i] && RemoveAt(q, p) == queue
    ensures q[..i + 1] == queue[..i + 1]
    ensures |queue| - i >= 2 ==> q[i + 1] == queue[i + 1]
    ensures multiset(q) == multiset(queue) + multiset{queue[i]}
  {
    var offset := p - i - 1;
    assert i + 1 + offset == p;
    Requeue(queue, i, offset)
  }

  /** The second "don't know" press (flashcards.js:587-626): a copy of the
      current card is re-queued at `CopyPosition`, the session moves on with
      the answer hidden, and in smart mode the stored card is demoted. */
  function CommitDontKnow(st: State, f: int): (r: State)
    requires DontKnowDraw(st.session, f)
    requires !Exhausted(st.session) && st.session.showAnswer
    ensures |r.session.queue| == |st.session.queue| + 1
    ensures r.session.queue[CopyPosition(st.session, f)] == st.session.queue[st.session.index]
    ensures RemoveAt(r.session.queue, CopyPosition(st.session, f)) == st.session.queue
    ensures r.session.index == st.session.index + 1
    ensures !r.session.showAnswer && r.session.mode == st.session.mode
    ensures st.session.mode == Smart ==>
              r.store == WriteBack(st.store, st.session.queue[st.session.index].front, Demote)
    ensures st.session.mode != Smart ==> r.store == st.store
  {
    var s := st.session;
    var store := if s.mode == Smart then WriteBack(st.store, s.queue[s.index].front, Demote) else st.store;
    State(Session(RequeueCurrent(s, f), s.index + 1, false, s.mode), store)
  }

  /** A mode button (flashcards.js:664-681): the chosen mode, a fresh queue
      from `cards`, the `getAll()` snapshot of the store, and the first card
      with its answer hidden. The store is not written. */
  function SelectMode(st: State, mode: Mode, cards: seq<Card>, count: Option<int>, draws: Draws): (r: State)
    requires SnapshotOf(cards, st.store)
    requires ValidDraws(cards, mode, count, draws)
    ensures r.session.mode == mode
    ensures r.session.index == 0 && !r.session.showAnswer
    ensures r.session.queue == LoadQueue(cards, mode, count, draws)
    ensures Valid(r.session)
    ensures r.store == st.store
    // Every queued card is the one stored under its front, and without a
    // limit every stored card the mode admits is queued.
    ensures forall c :: c in r.session.queue ==> c.front in st.store && st.store[c.front] == c
    ensures !LimitApplies(count, |Pool(cards, mode)|) ==>
              forall k :: k in st.store && HasFront(st.store[k]) && (mode == Smart ==> IsDue(st.store[k])) ==>
                st.store[k] in r.session.queue
  {
    var q := LoadQueue(cards, mode, count, draws);
    QueueFromStore(st.store, mode, cards, count, draws);
    State(Session(q, 0, false, mode), st.store)
  }

  /** The queue built from a snapshot holds stored cards only, and without a
      limit all the stored cards the mode admits. */
  lemma QueueFromStore(store: Store, mode: Mode, cards: seq<Card>, count: Option<int>, draws: Draws)
    requires SnapshotOf(cards, store)
    requires ValidDraws(cards, mode, count, draws)
    ensures forall c :: c in LoadQueue(cards, mode, count, draws) ==> c.front in store && store[c.front] == c
    ensures !LimitApplies(count, |Pool(cards, mode)|) ==>
              forall k :: k in store && HasFront(store[k]) && (mode == Smart ==> IsDue(store[k])) ==>
                store[k] in LoadQueue(cards, mode, count, draws)
  {
    var q := LoadQueue(cards, mode, count, draws);
    forall c | c in q
      ensures c.front in store && store[c.front] == c
    {
      var i :| 0 <= i < |cards| && cards[i] == c;
    }
    if !LimitApplies(count, |Pool(cards, mode)|) {
      forall k | k in store && HasFront(store[k]) && (mode == Smart ==> IsDue(store[k]))
        ensures store[k] in q
      {
        assert store[k] in Pool(cards, mode);
        assert store[k] in multiset(q);
      }
    }
  }

  /** The "to flashcards" button (flashcards.js:520-530): back to the mode
      choice, with the answer hidden and a queue rebuilt with no mode, which
      `loadFlashcards` shuffles like random mode. */
  function ReturnToModeChoice(st: State, cards: seq<Card>, count: Option<int>, draws: Draws): (r: State)
    requires SnapshotOf(cards, st.store)
    requires ValidDraws(cards, Unselected, count, draws)
    ensures r.session.mode == Unselected
    ensures r.session.index == 0 && !r.session.showAnswer
    ensures multiset(r.session.queue) <= multiset(Eligible(cards))
    ensures forall c :: c in r.session.queue ==> c.front in st.store && st.store[c.front] == c
    ensures r.store == st.store
  {
    var q := LoadQueue(cards, Unselected, count, draws);
    QueueDrawnFromPool(cards, Unselected, count, draws);
    QueueFromStore(st.store, Unselected, cards, count, draws);
    State(Session(q, 0, false, Unselected), st.store)
  }

  // ---------------------------------------------------------------------
  // Invariants of the state machine
  // ---------------------------------------------------------------------

  /** Both buttons keep the position within the queue and every card filed
      under its own front. "Know" uses up one card of the session; "don't
      know" re-queues it, so the number of cards left stays the same. */
  lemma {:induction false} TransitionsPreserveInvariants(st: State, f: int)
    requires Valid(st.session) && WellKeyed(st.store)
    requires DontKnowDraw(st.session, f)
    ensures Valid(Know(st).session) && WellKeyed(Know(st).store)
    ensures Valid(DontKnow(st, f).session) && WellKeyed(DontKnow(st, f).store)
    ensures !Exhausted(st.session) ==> Remaining(Know(st).session) == Remaining(st.session) - 1
    ensures Remaining(DontKnow(st, f).session) == Remaining(st.session)
  {
    KnowKeepsInvariants(st);
    DontKnowKeepsInvariants(st, f);
  }

  lemma KnowKeepsInvariants(st: State)
    requires Valid(st.session) && WellKeyed(st.store)
    ensures Valid(Know(st).session) && WellKeyed(Know(st).store)
    ensures !Exhausted(st.session) ==> Remaining(Know(st).session) == Remaining(st.session) - 1
  {
    var s := st.session;
    if !Exhausted(s) {
      var front := s.queue[s.index].front;
      if front in st.store {
        assert st.store[front].front == front;
      }
    }
  }

  lemma DontKnowKeepsInvariants(st: State, f: int)
    requires Valid(st.session) && WellKeyed(st.store)
    requires DontKnowDraw(st.session, f)
    ensures Valid(DontKnow(st, f).session) && WellKeyed(DontKnow(st, f).store)
    ensures Remaining(DontKnow(st, f).session) == Remaining(st.session)
  {
    var s := st.session;
    if !Exhausted(s) && s.showAnswer {
      var r := CommitDontKnow(st, f);
      assert DontKnow(st, f) == r;
      assert |r.session.queue| == |s.queue| + 1 && r.session.index == s.index + 1;
      if s.mode == Smart {
        DemoteKeepsKeys(st.store, s.queue[s.index].front);
      }
    }
  }

  /** Demoting the card filed under `front` keeps every card under its own
      front. */
  lemma DemoteKeepsKeys(store: Store, front: string)
    requires WellKeyed(store)
    ensures WellKeyed(WriteBack(store, front, Demote))
  {
    if front in store {
      assert store[front].front == front;
    }
  }

  // ---------------------------------------------------------------------
  // What the card area shows
  // ---------------------------------------------------------------------

  /** The card area drawn by `showFlashcard` (flashcards.js:467-506): nothing
      before a mode is chosen, a "no cards" notice for an empty queue, a
      "review finished" notice once the queue is used up, and otherwise the
      front, with the back once the answer is shown, and the progress
      "position / total". */
  datatype Display =
    | Blank
    | NoCards
    | Finished(total: nat)
    | Question(front: string, position: nat, total: nat)
    | Answer(front: string, back: string, position: nat, total: nat)

  function Show(s: Session): (d: Display)
    ensures d.Blank? <==> s.mode == Unselected
    ensures d.NoCards? <==> s.mode != Unselected && |s.queue| == 0
    ensures d.Finished? <==> s.mode != Unselected && |s.queue| > 0 && Exhausted(s)
    ensures d.Question? <==> s.mode != Unselected && !Exhausted(s) && !s.showAnswer
    ensures d.Answer? <==> s.mode != Unselected && !Exhausted(s) && s.showAnswer
    ensures d.Finished? ==> d.total == |s.queue|
    ensures d.Question? || d.Answer? ==>
              d.front == s.queue[s.index].front && d.position == s.index + 1 && d.total == |s.queue|
    ensures d.Answer? ==> d.back == s.queue[s.index].back
  {
    if s.mode == Unselected then Blank
    else if |s.queue| == 0 then NoCards
    else if s.index >= |s.queue| then Finished(|s.queue|)
    else if !s.showAnswer then Question(s.queue[s.index].front, s.index + 1, |s.queue|)
    else Answer(s.queue[s.index].front, s.queue[s.index].back, s.index + 1, |s.queue|)
  }

  /** Once the review is finished, further clicks on either button leave the
      session, the store and the display as they are. */
  lemma FinishedIsFinal(st: State, f: int)
    requires Show(st.session).Finished?
    ensures Know(st) == st
    ensures DontKnowDraw(st.session, f) && DontKnow(st, f) == st
    ensures Show(Know(st).session).Finished?
  {
  }

  // ---------------------------------------------------------------------
  // Worked examples
  // ---------------------------------------------------------------------

  /** In smart mode, "know" on a card stored with counter 2 stores counter 3
      and 2 days left; "don't know" on counter 5 stores counter 3 and 2 days;
      on counter 0 it stores 0 and 0. */
  lemma SmartModeExamples(front: string, back: string)
    ensures Promote(Card(front, back, Some(0), Some(2))) == Card(front, back, Some(2), Some(3))
    ensures Demote(Card(front, back, Some(0), Some(5))) == Card(front, back, Some(2), Some(3))
    ensures Demote(Card(front, back, Some(0), Some(0))) == Card(front, back, Some(0), Some(0))
  {
    assert Interval(3) == 2 by {
      FirstIntervals();
    }
    assert Interval(0) == 0 by {
      FirstIntervals();
    }
  }

  /** Random mode, queue [ile, ich]: "know" moves to the second card, keeps
      the queue and writes nothing. */
  lemma RandomModeKnowExample(store: Store)
    ensures
      var a := Card("ile", "", Some(0), Some(0));
      var b := Card("ich", "", Some(0), Some(0));
      var st := State(Session([a, b], 0, false, Random), store);
      Know(st) == State(Session([a, b], 1, false, Random), store)
  {
  }
}

=== FILE: sequences.dfy ===
/** Sequence helpers shared by the queue builder, the review state machine and
    the card list: order-preserving filtering, single-element insertion and
    removal, and the index clamping of JavaScript's `Array.prototype.splice`. */
module Sequences {

  /** The elements of `s` that satisfy `f`, in their original order
      (JavaScript's `Array.prototype.filter`). */
  function Filter<T(!new)>(f: T -> bool, s: seq<T>): (r: seq<T>)
    ensures |r| <= |s|
    ensures forall x :: x in r <==> x in s && f(x)
    ensures multiset(r) <= multiset(s)
  {
    if |s| == 0 then []
    else
      assert s == [s[0]] + s[1..];
      (if f(s[0]) then [s[0]] else []) + Filter(f, s[1..])
  }

  /** Filtering distributes over concatenation. */
  lemma {:induction false} FilterAppend<T(!new)>(f: T -> bool, a: seq<T>, b: seq<T>)
    ensures Filter(f, a + b) == Filter(f, a) + Filter(f, b)
  {
    if |a| == 0 {
      assert a + b == b;
    } else {
      assert (a + b)[1..] == a[1..] + b;
      FilterAppend(f, a[1..], b);
    }
  }

  /** `s` with `x` placed at position `p`; everything from `p` on moves one
      place to the right. */
  function InsertAt<T>(s: seq<T>, p: nat, x: T): (r: seq<T>)
    requires p <= |s|
    ensures |r| == |s| + 1
    ensures r[p] == x
    ensures forall i :: 0 <= i < p ==> r[i] == s[i]
    ensures forall i :: p <= i < |s| ==> r[i + 1] == s[i]
    ensures multiset(r) == multiset(s) + multiset{x}
  {
    assert s == s[..p] + s[p..];
    s[..p] + [x] + s[p..]
  }

  /** `s` without the element at position `p`. */
  function RemoveAt<T>(s: seq<T>, p: nat): (r: seq<T>)
    requires p < |s|
    ensures |r| == |s| - 1
    ensures forall i :: 0 <= i < p ==> r[i] == s[i]
    ensures forall i :: p <= i < |r| ==> r[i] == s[i + 1]
  {
    s[..p] + s[p + 1..]
  }

  /** Removing what was just inserted gives back the original sequence, so an
      insertion keeps every other element in its relative order. */
  lemma InsertThenRemove<T>(s: seq<T>, p: nat, x: T)
    requires p <= |s|
    ensures RemoveAt(InsertAt(s, p, x), p) == s
  {
    var r := RemoveAt(InsertAt(s, p, x), p);
    assert forall i :: 0 <= i < |s| ==> r[i] == s[i];
  }

  /** The insertion offset `Array.prototype.splice(start, 0, x)` really uses
      on an array of length `len`: a negative start counts from the end, and
      the result is clamped into `[0, len]`. */
  function SpliceStart(start: int, len: nat): (p: nat)
    ensures p <= len
    ensures 0 <= start <= len ==> p == start
    ensures start > len ==> p == len
    ensures start < 0 && 0 <= len + start ==> p == len + start
    ensures start < 0 && len + start < 0 ==> p == 0
  {
    if start < 0 then (if len + start < 0 then 0 else len + start)
    else if start > len then len
    else start
  }

  /** A prefix holds no element more often than the whole sequence. */
  lemma PrefixSubMultiset<T>(s: seq<T>, k: nat)
    requires k <= |s|
    ensures multiset(s[..k]) <= multiset(s)
  {
    assert s == s[..k] + s[k..];
  }
}

=== FILE: shuffle.dfy ===
/** `shuffleArray` (flashcards.js): the in-place Fisher–Yates shuffle, with
    each `Math.random()` draw supplied as a parameter constrained to the
    values the source can produce. */
module Shuffle {

  /** `f` is a value that `Math.floor(Math.random() * m)` can take, given that
      `Math.random()` lies in [0, 1): [0, m) for positive `m`, exactly 0 for
      `m == 0`, and [m, 0] for negative `m`. */
  predicate FloorDraw(m: int, f: int) {
    if m > 0 then 0 <= f < m
    else if m == 0 then f == 0
    else m <= f <= 0
  }

  /** Draws for shuffling `n` elements: `draws[t]` is the `j` of the loop
      iteration `i = n - 1 - t`, drawn from [0, i]. The loop runs for
      i = n-1 down to 1. */
  predicate ShuffleDraws(n: nat, draws: seq<int>) {
    && |draws| == (if n == 0 then 0 else n - 1)
    && forall t :: 0 <= t < |draws| ==> FloorDraw(n - t, draws[t])
  }

  /** `[array[i], array[j]] = [array[j], array[i]]`. */
  function Swap<T>(a: seq<T>, i: nat, j: nat): (r: seq<T>)
    requires i < |a| && j < |a|
    ensures |r| == |a|
    ensures r[i] == a[j] && r[j] == a[i]
    ensures forall k :: 0 <= k < |a| && k != i && k != j ==> r[k] == a[k]
    ensures multiset(r) == multiset(a)
  {
    a[i := a[j]][j := a[i]]
  }

  /** The loop from iteration `t` on. Once iteration `t` has run, position
      `n - 1 - t` is final. */
  function ShuffleFrom<T>(a: seq<T>, draws: seq<int>, t: nat): (r: seq<T>)
    requires ShuffleDraws(|a|, draws)
    requires t <= |draws|
    ensures |r| == |a|
    ensures multiset(r) == multiset(a)
    ensures forall k :: |a| - t <= k < |a| ==> r[k] == a[k]
    decreases |draws| - t
  {
    if t == |draws| then a
    else ShuffleFrom(Swap(a, |a| - 1 - t, draws[t]), draws, t + 1)
  }

  /** `shuffleArray(array)`: a permutation of its input, whatever the draws. */
  function ShuffleArray<T>(a: seq<T>, draws: seq<int>): (r: seq<T>)
    requires ShuffleDraws(|a|, draws)
    ensures |r| == |a|
    ensures multiset(r) == multiset(a)
  {
    ShuffleFrom(a, draws, 0)
  }

  /** The first draw alone decides which element ends up last. */
  lemma ShuffleLastPick<T>(a: seq<T>, draws: seq<int>)
    requires ShuffleDraws(|a|, draws)
    requires |a| >= 2
    ensures ShuffleArray(a, draws)[|a| - 1] == a[draws[0]]
  {
    var a1 := Swap(a, |a| - 1, draws[0]);
    assert ShuffleFrom(a1, draws, 1)[|a| - 1] == a1[|a| - 1];
  }

  /** Drawing `j == i` at every step swaps each element with itself: the
      array comes back unchanged. */
  lemma {:induction false} ShuffleFromFixedDraws<T>(a: seq<T>, draws: seq<int>, t: nat)
    requires ShuffleDraws(|a|, draws)
    requires t <= |draws|
    requires forall s :: 0 <= s < |draws| ==> draws[s] == |a| - 1 - s
    ensures ShuffleFrom(a, draws, t) == a
    decreases |draws| - t
  {
    if t < |draws| {
      SwapSelf(a, |a| - 1 - t);
      ShuffleFromFixedDraws(a, draws, t + 1);
    }
  }

  lemma SwapSelf<T>(a: seq<T>, i: nat)
    requires i < |a|
    ensures Swap(a, i, i) == a
  {
  }
}

=== FILE: spacing.dfy ===
/** The review interval: after `counter` consecutive successes a card is next
    due in `F(counter + 1) - 1` days, where `F` is the Fibonacci sequence as
    computed by `fibonacciByIndex` (flashcards.js). */
module Spacing {

  /** The reference Fibonacci sequence, F(0) = 0 and F(1) = 1. */
  function Fib(n: nat): nat {
    if n < 2 then n else Fib(n - 1) + Fib(n - 2)
  }

  /** The loop `for (let i = 2; i <= n; i++)` of `fibonacciByIndex`, with
      `a`, `b` its two running variables; it returns `b` on exit. */
  function FibLoop(a: nat, b: nat, i: int, n: int): nat
    decreases n - i
  {
    if i > n then b else FibLoop(b, a + b, i + 1, n)
  }

  /** Loop invariant of `fibonacciByIndex`: on entry to iteration `i` the
      running pair is (F(i-2), F(i-1)), so on exit `b` is F(n). */
  lemma {:induction false} FibLoopComputesFib(i: nat, n: nat)
    requires 2 <= i <= n + 1
    ensures FibLoop(Fib(i - 2), Fib(i - 1), i, n) == Fib(n)
    decreases n - i
  {
    if i <= n {
      FibLoopComputesFib(i + 1, n);
    }
  }

  /** `fibonacciByIndex(n)`: the n-th Fibonacci number for every n >= 0.
      A negative argument skips the loop and returns its initial `b`, 1. */
  function FibonacciByIndex(n: int): (r: nat)
    ensures n >= 0 ==> r == Fib(n)
    ensures n < 0 ==> r == 1
  {
    if n == 0 then 0
    else if n == 1 then 1
    else
      assert n >= 2 ==> FibLoop(0, 1, 2, n) == Fib(n) by {
        if n >= 2 {
          FibLoopComputesFib(2, n);
        }
      }
      FibLoop(0, 1, 2, n)
  }

  /** Days until a card with the given review counter is due again,
      `fibonacciByIndex(counter + 1) - 1`. */
  function Interval(counter: int): (r: int)
    ensures counter >= -1 ==> r == Fib(counter + 1) - 1
    ensures counter >= 0 ==> r >= 0
    ensures counter < -1 ==> r == 0
  {
    assert counter >= 0 ==> Fib(counter + 1) >= 1 by {
      if counter >= 0 {
        FibMonotone(1, counter + 1);
      }
    }
    FibonacciByIndex(counter + 1) - 1
  }

  /** The first values of the spacing curve. */
  lemma IntervalValues()
    ensures Interval(0) == 0 && Interval(1) == 0 && Interval(2) == 1
    ensures Interval(3) == 2 && Interval(4) == 4 && Interval(5) == 7
    ensures Interval(6) == 12 && Interval(7) == 20
  {
    FirstIntervals();
    assert Fib(5) == 5 && Fib(6) == 8 && Fib(7) == 13 && Fib(8) == 21;
  }

  /** The intervals reachable from a penalised counter (0, 1 or 3). */
  lemma FirstIntervals()
    ensures Interval(0) == 0 && Interval(1) == 0 && Interval(2) == 1 && Interval(3) == 2
  {
    assert Fib(2) == 1 && Fib(3) == 2 && Fib(4) == 3;
  }

  lemma {:induction false} FibMonotone(m: nat, n: nat)
    requires m <= n
    ensures Fib(m) <= Fib(n)
    decreases n - m
  {
    if m < n {
      FibMonotone(m, n - 1);
      assert Fib(n - 1) <= Fib(n);
    }
  }

  /** More successful reviews never shorten the interval. */
  lemma IntervalMonotone(c1: int, c2: int)
    requires 0 <= c1 <= c2
    ensures 0 <= Interval(c1) <= Interval(c2)
  {
    FibMonotone(c1 + 1, c2 + 1);
  }

  /** From counter 1 on the interval grows strictly, following
      I(c+1) = I(c) + I(c-1) + 1. */
  lemma IntervalRecurrence(c: int)
    requires c >= 1
    ensures Interval(c + 1) == Interval(c) + Interval(c - 1) + 1
    ensures Interval(c) < Interval(c + 1)
  {
    assert Fib(c + 2) == Fib(c + 1) + Fib(c);
    FibMonotone(1, c);
  }
}

=== FILE: textcase.dfy ===
/** Character case as far as this extension needs it: `toLowerCase` and
    `toUpperCase` restricted to an explicit table of Latin letters, the
    Russian Cyrillic block and the five extra letters of the Sakha alphabet
    (Ҕ ҕ, Ҥ ҥ, Ү ү, Һ һ, Ө ө). Every other character is its own case. */
module TextCase {

  /** Upper-case Sakha letters Ҕ, Ҥ, Ү, Һ, Ө; each lower-case partner is the
      next code point. */
  const SakhaUpper: set<char> := {'\U{0494}', '\U{04A4}', '\U{04AE}', '\U{04BA}', '\U{04E8}'}
  const SakhaLower: set<char> := {'\U{0495}', '\U{04A5}', '\U{04AF}', '\U{04BB}', '\U{04E9}'}

  predicate IsUpperLetter(c: char) {
    ('A' <= c <= 'Z') || ('\U{0400}' <= c <= '\U{042F}') || c in SakhaUpper
  }

  predicate IsLowerLetter(c: char) {
    ('a' <= c <= 'z') || ('\U{0430}' <= c <= '\U{045F}') || c in SakhaLower
  }

  /** The ASCII decimal digits, which is what the regular expression `\d`
      matches in JavaScript. */
  predicate IsDigit(c: char) {
    '0' <= c <= '9'
  }

  function Lower(c: char): (r: char)
    ensures IsUpperLetter(c) ==> IsLowerLetter(r)
    ensures !IsUpperLetter(c) ==> r == c
  {
    if 'A' <= c <= 'Z' then (c as int + 0x20) as char
    else if '\U{0410}' <= c <= '\U{042F}' then (c as int + 0x20) as char
    else if '\U{0400}' <= c <= '\U{040F}' then (c as int + 0x50) as char
    else if c in SakhaUpper then (c as int + 1) as char
    else c
  }

  function Upper(c: char): (r: char)
    ensures IsLowerLetter(c) ==> IsUpperLetter(r)
    ensures !IsLowerLetter(c) ==> r == c
  {
    if 'a' <= c <= 'z' then (c as int - 0x20) as char
    else if '\U{0430}' <= c <= '\U{044F}' then (c as int - 0x20) as char
    else if '\U{0450}' <= c <= '\U{045F}' then (c as int - 0x50) as char
    else if c in SakhaLower then (c as int - 1) as char
    else c
  }

  /** The two tables are inverse to each other on letters, and applying one
      twice is the same as applying it once. */
  lemma CaseRoundTrip(c: char)
    ensures IsUpperLetter(c) ==> Upper(Lower(c)) == c
    ensures IsLowerLetter(c) ==> Lower(Upper(c)) == c
    ensures Upper(Upper(c)) == Upper(c)
    ensures Lower(Lower(c)) == Lower(c)
  {
    if IsUpperLetter(c) {
      UpperAfterLower(c);
    } else if IsLowerLetter(c) {
      LowerAfterUpper(c);
    }
  }

  lemma UpperAfterLower(c: char)
    requires IsUpperLetter(c)
    ensures Upper(Lower(c)) == c && !IsUpperLetter(Lower(c))
  {
  }

  lemma LowerAfterUpper(c: char)
    requires IsLowerLetter(c)
    ensures Lower(Upper(c)) == c && !IsLowerLetter(Upper(c))
  {
  }

  function LowerString(s: string): (r: string)
    ensures |r| == |s|
    ensures forall i :: 0 <= i < |s| ==> r[i] == Lower(s[i])
  {
    seq(|s|, i requires 0 <= i < |s| => Lower(s[i]))
  }

  function UpperString(s: string): (r: string)
    ensures |r| == |s|
    ensures forall i :: 0 <= i < |s| ==> r[i] == Upper(s[i])
  {
    seq(|s|, i requires 0 <= i < |s| => Upper(s[i]))
  }

  /** A string is its own upper case exactly when none of its characters is a
      lower-case letter. */
  lemma UpperStringFixpoint(s: string)
    ensures UpperString(s) == s <==> forall i :: 0 <= i < |s| ==> !IsLowerLetter(s[i])
  {
    if UpperString(s) == s {
      forall i | 0 <= i < |s|
        ensures !IsLowerLetter(s[i])
      {
        assert UpperString(s)[i] == Upper(s[i]);
      }
    }
  }

  lemma LowerStringIdempotent(s: string)
    ensures LowerString(LowerString(s)) == LowerString(s)
  {
    forall i | 0 <= i < |s|
      ensures LowerString(LowerString(s))[i] == LowerString(s)[i]
    {
      CaseRoundTrip(s[i]);
    }
  }

  lemma UpperStringIdempotent(s: string)
    ensures UpperString(UpperString(s)) == UpperString(s)
  {
    forall i | 0 <= i < |s|
      ensures UpperString(UpperString(s))[i] == UpperString(s)[i]
    {
      CaseRoundTrip(s[i]);
    }
  }
}

=== FILE: transliteration.dfy ===
/** The Sakha keyboard helper of popup.js: typing a backslash right after
    one of a few Russian letters or digits replaces that character with the
    Sakha letter it stands for, and the backslash itself is never inserted.
    Letters keep their own case; digits follow the Caps Lock state. */
module Transliteration {
  import opened Wrappers
  import opened TextCase

  /** The replacement table of the `beforeinput` handler
      (popup.js:235-246): е, о, 6 → ө; у, 8 → ү; н, 4 → ҥ; ь, 7 → һ; 5 → ҕ. */
  const Table: map<char, char> := map[
    '\U{0435}' := '\U{04E9}',
    '\U{043E}' := '\U{04E9}',
    '\U{0443}' := '\U{04AF}',
    '\U{043D}' := '\U{04A5}',
    '\U{044C}' := '\U{04BB}',
    '4' := '\U{04A5}',
    '5' := '\U{0495}',
    '6' := '\U{04E9}',
    '7' := '\U{04BB}',
    '8' := '\U{04AF}'
  ]

  /** The characters of the table are either lower-case Russian letters or
      digits, and every value is a lower-case Sakha letter. */
  lemma TableShape()
    ensures forall k :: k in Table ==> (IsLowerLetter(k) && !IsDigit(k)) || IsDigit(k)
    ensures forall k :: k in Table ==> Table[k] in SakhaLower
  {
  }

  /** The upper case of a lower-case Sakha letter is the matching capital. */
  lemma SakhaCase(c: char)
    requires c in SakhaLower
    ensures Upper(c) in SakhaUpper && Lower(Upper(c)) == c && IsUpperLetter(Upper(c))
    ensures Lower(c) == c && !IsUpperLetter(c)
  {
  }

  /** What the handler does with one `beforeinput` event. */
  datatype Outcome =
    | PassThrough                       // the event is not handled: the browser inserts the data
    | Swallowed                         // the backslash is suppressed and nothing changes
    | Replaced(text: string, caret: nat) // the new field value and caret position

  /** The event is a backslash typed into an `INPUT` or `TEXTAREA`. */
  predicate Handled(tag: string, data: Option<string>) {
    (tag == "INPUT" || tag == "TEXTAREA") && data == Some("\\")
  }

  /** The character the handler replaces, when there is one: the character
      just before the caret, provided its lower case is in the table. A
      missing caret (`selectionStart` is null for some input types) and a
      caret at the start of the field leave nothing to replace. */
  predicate Replaceable(text: string, pos: Option<nat>)
    requires pos.Some? ==> pos.value <= |text|
  {
    pos.Some? && pos.value >= 1 && Lower(text[pos.value - 1]) in Table
  }

  /** The replacement for `prev`, in the case the handler picks: a digit
      gives the upper-case letter exactly when Caps Lock is on, a letter
      gives the upper-case letter exactly when it is its own upper case. */
  function Replacement(prev: char, capsOn: bool): (r: char)
    requires Lower(prev) in Table
    ensures Lower(r) == Table[Lower(prev)]
    ensures IsDigit(prev) ==> (IsUpperLetter(r) <==> capsOn)
    ensures !IsDigit(prev) ==> (IsUpperLetter(r) <==> IsUpperLetter(prev))
    ensures r in SakhaUpper || r in SakhaLower
  {
    var replaced := Table[Lower(prev)];
    TableShape();
    SakhaCase(replaced);
    var upper :=
      if IsDigit(prev) then capsOn
      else prev == Upper(prev);
    if upper then Upper(replaced) else replaced
  }

  /** The `beforeinput` listener (popup.js:227-274), with the event's target
      tag, its data, the field value, `selectionStart` and the last seen Caps
      Lock state as inputs. */
  function BeforeInput(tag: string, data: Option<string>, text: string, pos: Option<nat>, capsOn: bool): (r: Outcome)
    requires pos.Some? ==> pos.value <= |text|
    ensures r.PassThrough? <==> !Handled(tag, data)
    ensures r.Swallowed? <==> Handled(tag, data) && !Replaceable(text, pos)
    ensures r.Replaced? ==>
              && Replaceable(text, pos)
              && r.caret == pos.value
              && |r.text| == |text|
              && r.text[r.caret - 1] == Replacement(text[r.caret - 1], capsOn)
              && (forall i :: 0 <= i < |text| && i != r.caret - 1 ==> r.text[i] == text[i])
    ensures r.Replaced? ==> forall i :: 0 <= i < |r.text| && r.text[i] == '\\' ==> text[i] == '\\'
  {
    if !Handled(tag, data) then PassThrough
    else if !Replaceable(text, pos) then Swallowed
    else
      var p := pos.value;
      var c := Replacement(text[p - 1], capsOn);
      assert c != '\\';
      Replaced(text[..p - 1] + [c] + text[p..], p)
  }

  /** A second backslash right after a replacement is swallowed: the Sakha
      letter just produced is not in the table, so nothing is transliterated
      twice. */
  lemma NoDoubleReplacement(tag: string, text: string, pos: Option<nat>, capsOn: bool, capsOn': bool)
    requires pos.Some? ==> pos.value <= |text|
    requires BeforeInput(tag, Some("\\"), text, pos, capsOn).Replaced?
    ensures
      var o := BeforeInput(tag, Some("\\"), text, pos, capsOn);
      BeforeInput(tag, Some("\\"), o.text, Some(o.caret), capsOn').Swallowed?
  {
    var o := BeforeInput(tag, Some("\\"), text, pos, capsOn);
    SakhaNotInTable(o.text[o.caret - 1]);
  }

  lemma SakhaNotInTable(c: char)
    requires c in SakhaUpper || c in SakhaLower
    ensures Lower(c) !in Table
  {
  }

  /** Some keystrokes: "н\" gives "ҥ", "Н\" gives "Ҥ", "5\" gives "ҕ" or
      "Ҕ" by Caps Lock, and "д\" swallows the backslash. */
  lemma BeforeInputExamples()
    ensures BeforeInput("TEXTAREA", Some("\\"), "\U{043D}", Some(1), true) == Replaced("\U{04A5}", 1)
    ensures BeforeInput("INPUT", Some("\\"), "\U{041D}", Some(1), false) == Replaced("\U{04A4}", 1)
    ensures BeforeInput("INPUT", Some("\\"), "a5b", Some(2), false) == Replaced("a\U{0495}b", 2)
    ensures BeforeInput("INPUT", Some("\\"), "a5b", Some(2), true) == Replaced("a\U{0494}b", 2)
    ensures BeforeInput("INPUT", Some("\\"), "\U{0434}", Some(1), false) == Swallowed
    ensures BeforeInput("INPUT", Some("\\"), "\U{043D}", Some(0), false) == Swallowed
    ensures BeforeInput("DIV", Some("\\"), "\U{043D}", Some(1), false) == PassThrough
    ensures BeforeInput("INPUT", Some("x"), "\U{043D}", Some(1), false) == PassThrough
  {
    assert "\U{043D}"[..0] + ['\U{04A5}'] + "\U{043D}"[1..] == "\U{04A5}";
    assert "\U{041D}"[..0] + ['\U{04A4}'] + "\U{041D}"[1..] == "\U{04A4}";
    assert "a5b"[..1] + ['\U{0495}'] + "a5b"[2..] == "a\U{0495}b";
    assert "a5b"[..1] + ['\U{0494}'] + "a5b"[2..] == "a\U{0494}b";
  }

  /** `applyCase(src, dst)` (popup.js:139-143): `dst` in capitals when `src`
      is written entirely in capitals, otherwise `dst` unchanged. */
  function ApplyCase(src: string, dst: string): (r: string)
    ensures |r| == |dst|
    ensures (forall i :: 0 <= i < |src| ==> !IsLowerLetter(src[i])) ==> r == UpperString(dst)
    ensures (exists i :: 0 <= i < |src| && IsLowerLetter(src[i])) ==> r == dst
  {
    UpperStringFixpoint(src);
    if src == UpperString(src) then UpperString(dst) else dst
  }

  /** Applying the case of `src` twice is the same as applying it once, and
      the result never has a lower-case letter when `src` has none. */
  lemma ApplyCaseIdempotent(src: string, dst: string)
    ensures ApplyCase(src, ApplyCase(src, dst)) == ApplyCase(src, dst)
    ensures (forall i :: 0 <= i < |src| ==> !IsLowerLetter(src[i])) ==>
              forall i :: 0 <= i < |dst| ==> !IsLowerLetter(ApplyCase(src, dst)[i])
  {
    UpperStringFixpoint(src);
    UpperStringIdempotent(dst);
    UpperStringFixpoint(UpperString(dst));
  }
}

=== FILE: wrappers.dfy ===
/** A value that may be absent: JavaScript's `undefined`, or the `NaN` that
    `parseInt` returns for text that is not a number. */
module Wrappers {

  datatype Option<+T> = None | Some(value: T) {

    /** The carried value, or `default` when absent (JavaScript's `x || 0`
        for a numeric field whose zero is already the default). */
    function GetOr(default: T): T {
      match this
      case Some(v) => v
      case None => default
    }
  }
}
